=== FILE: README.md ===
# Design History Animation: timelapse planning and interpolation

This project models the engine of `HistoryTimelapse` in
`Design-History-Animation/Design-History-Animation/Design-History-Animation.py`.
The engine replays a CAD design's timeline as a numbered image sequence. For
each operation in a range it moves the timeline marker past the operation,
steps the operation's driving parameters and fades in its new bodies over a
number of sub-frames, saves one frame per sub-frame, and then restores the
parameters and opacities it touched. The project also models the index
arithmetic of the OBJ mesh export that can accompany each frame.

The host application is reduced to plain data:

- The timeline is a sequence of items. Each item has a suppressed flag, a
  group flag and an optional entity tagged by kind. An item the host cannot
  read is `Unreadable`.
- Parameters are a map from a parameter id to a value and an expression.
  Opacities are a map from a body or component id to a real number. The
  marker is an integer.
- A host write of a parameter value may raise. The set of writes that raise
  is an input (`Driver.Write`).
- Values are exact rationals (`real`). Python's `int()` on a float, which
  truncates toward zero, is written out as `Base.Trunc`.

Modules, in the program's order:

- `Base`: `Option`, `abs`, truncation and small order facts about products.
- `Timeline`: items, entities, extents, parameters and the host state.
- `Extents`: `isNumericExtent` and the driver of a numeric extent.
- `Dispatch`: the per-item decision (skip, log or animate) and the
  extraction of targets `(parameter, stepSize, stepOffset)` and fades.
- `Interpolation`: the clamped value written at each sub-frame, the opacity
  ramp, and what they reach.
- `Driver`: the sub-frame loop of one item, with snapshot and restore.
- `Session`: one `collectFrames` run, covering the marker, the log, the
  global frame counter and the trailing frames.
- `FrameNames`: the `frame_{:05d}` file names.
- `ObjWriter`: the header totals and face lines of `saveObjFile`.

The model follows the code where the code is irregular:

- Trailing frames go to the item at index `end - 1` only. If that item is
  skipped or only logged, no trailing frames are emitted at all
  (`Session.TotalFrames`).
- An extrusion whose two sides are both non-numeric and which creates a body
  or component fades its bodies once per side, so twice
  (`Dispatch.ExtrudeFadesBodiesPerSide`).
- The fade-in branch for occurrences (lines 404-410) is never reached,
  because occurrences are skipped earlier (`Dispatch.OccurrenceAlwaysSkipped`).
- Direction two of a rectangular pattern has no floor of one on its quantity
  step. A quantity Q with 1 < Q < N, where N is the sub-frame count, gets
  step zero and is written as zero on every sub-frame
  (`Interpolation.PatternDirectionTwoStalls`); a quantity of exactly 1 is
  left alone (`Dispatch.PatternDirectionTargets`).
- A Mirror writes two log lines, one for the body count and one for the
  input count, and a failure while reading the second count leaves the first
  line in place (`Dispatch.MirrorPartialLog`).
- With rotation switched off, line 261 sets the rotation step count to 0, and
  line 276 then divides by it before any frame is saved. The dialog's spinner
  keeps the count at 1 or more while rotation is on. A run therefore fails
  exactly when rotation is off (`Session.CollectFrames`, `RotationByZero`).
  Line 471 skips the orbit for a count of 0 or less, so the code itself
  treats 0 as no rotation, but the division at line 276 runs first and
  fails.

## Model

| member | source | states |
|---|---|---|
| `Extents.IsNumericExtent` | Design-History-Animation/Design-History-Animation/Design-History-Animation.py:239-248 | true exactly for distance, symmetric and angle extents, and exactly for the extents that carry a driving parameter |
| `Extents.DrivingParam` | Design-History-Animation/Design-History-Animation/Design-History-Animation.py:347-349 | a numeric extent has exactly one driving parameter, the one the engine steps |
| `Dispatch.Classify` | Design-History-Animation/Design-History-Animation/Design-History-Animation.py:286-383 | an item is skipped if and only if it is unreadable, suppressed, a group, has no entity, or is of an ignored kind; Move and Mirror are only logged, with one or two lines carrying the item's index; every other kind is animated with its own entity |
| `Dispatch.OccurrenceAlwaysSkipped` | Design-History-Animation/Design-History-Animation/Design-History-Animation.py:310-311 | an occurrence item is skipped whatever its flags, so the occurrence fade branch is dead |
| `Dispatch.EvenTarget` | Design-History-Animation/Design-History-Animation/Design-History-Animation.py:347-351 | an extent driver of value V is stepped by V / N with offset 0, so N steps make V |
| `Dispatch.IsFadeOperation` | Design-History-Animation/Design-History-Animation/Design-History-Animation.py:353 | the operation codes 3 and 4 are exactly new body and new component |
| `Dispatch.QuantityStep` | Design-History-Animation/Design-History-Animation/Design-History-Animation.py:414-433 | the quantity step is `int(Q / N)`: at least one in direction one, and exactly one there when Q < N; in direction two zero for 0 <= Q < N; from Q >= N on, the largest step whose N multiples stay within Q |
| `Dispatch.PlanFor` | Design-History-Animation/Design-History-Animation/Design-History-Animation.py:346-440 | every target is a parameter of the entity and every fade one of its bodies or components; a numeric revolve steps its angle evenly and fades nothing, a non-numeric one animates nothing; a joint fades exactly its first occurrence's component when it has one; a rectangular pattern fades nothing; kinds other than extrude, revolve, joint and rectangular pattern animate nothing |
| `Dispatch.ExtrudeMixedSides` | Design-History-Animation/Design-History-Animation/Design-History-Animation.py:346-368 | an extrusion with one numeric and one non-numeric side steps the numeric side's driver, whichever side is numeric, and fades its bodies once for a new body or component and not at all for any other operation |
| `Dispatch.ExtrudeOtherOperationsNoFade` | Design-History-Animation/Design-History-Animation/Design-History-Animation.py:346-368 | an extrusion that creates neither a body nor a component fades nothing and steps exactly the drivers of its numeric sides, side one first; a non-numeric side adds nothing |
| `Dispatch.PatternPlan` | Design-History-Animation/Design-History-Animation/Design-History-Animation.py:411-440 | a pattern's plan is direction one's targets followed by direction two's, with nothing faded |
| `Dispatch.PatternDirectionTargets` | Design-History-Animation/Design-History-Animation/Design-History-Animation.py:412-434 | a direction without a quantity or with a quantity of exactly one adds nothing; otherwise it adds its quantity Q stepped by the quantity step from zero and, if it has a distance D, that distance stepped by D / (Q - 1) times the quantity step from -D / (Q - 1) |
| `Dispatch.MoveLogged` | Design-History-Animation/Design-History-Animation/Design-History-Animation.py:370-376 | a Move logs one line carrying its index: its transform when that can be read, and the error line otherwise |
| `Dispatch.MirrorPartialLog` | Design-History-Animation/Design-History-Animation/Design-History-Animation.py:377-383 | a Mirror whose input count cannot be read logs its body count and then the error line |
| `Dispatch.ExtrudeFadesBodiesPerSide` | Design-History-Animation/Design-History-Animation/Design-History-Animation.py:352-368 | a new-body extrusion with a non-numeric first side fades its bodies once per non-numeric side: twice when the second side exists and is non-numeric, once when there is no second side, whatever the unread second extent |
| `Dispatch.ExtrudeNumericSidesOnly` | Design-History-Animation/Design-History-Animation/Design-History-Animation.py:346-363 | an extrusion with numeric sides steps each side's driver evenly and fades nothing |
| `Interpolation.Clamp` | Design-History-Animation/Design-History-Animation/Design-History-Animation.py:452-453 | the result never exceeds the original in magnitude, is either the value or the original, and is the value whenever that is within the original's magnitude |
| `Interpolation.StepValue` | Design-History-Animation/Design-History-Animation/Design-History-Animation.py:451-455 | the value written at a sub-frame never exceeds the parameter's original in magnitude and is the stepped value or the original |
| `Interpolation.FadeValue` | Design-History-Animation/Design-History-Animation/Design-History-Animation.py:463-466 | the opacity written never exceeds the original opacity in magnitude |
| `Interpolation.ScaledMagnitude` | Design-History-Animation/Design-History-Animation/Design-History-Animation.py:452-453 | j of n parts of a value stay within it in magnitude up to j = n, equal it at j = n and pass it beyond, which is when the clamp takes over |
| `Interpolation.EvenRamp` | Design-History-Animation/Design-History-Animation/Design-History-Animation.py:449-455 | an evenly stepped parameter of value V shows (j + 1) / N of V at sub-frame j < N, and exactly V from sub-frame N - 1 on, trailing sub-frames included |
| `Interpolation.EvenRampIncreasing` | Design-History-Animation/Design-History-Animation/Design-History-Animation.py:449-455 | for a positive value the even ramp strictly increases over the regular sub-frames |
| `Interpolation.FadeRamp` | Design-History-Animation/Design-History-Animation/Design-History-Animation.py:463-468 | the opacity shows (j + 1) / N of the original at sub-frame j < N, and exactly the original from N - 1 on, trailing sub-frames included |
| `Interpolation.FadeWithinOpacity` | Design-History-Animation/Design-History-Animation/Design-History-Animation.py:463-468 | a non-negative opacity fades in between zero and its original value |
| `Interpolation.SpacingClamp` | Design-History-Animation/Design-History-Animation/Design-History-Animation.py:424-427 | clamping a pattern distance against its original gives the spacing times the clamped quantity, less one |
| `Interpolation.CountAndDistance` | Design-History-Animation/Design-History-Animation/Design-History-Animation.py:419-427 | a quantity target stepping by s and a distance target stepping by sp * s from offset -sp write, at every sub-frame, a distance of sp times the quantity written, less one |
| `Interpolation.PatternKeepsSpacing` | Design-History-Animation/Design-History-Animation/Design-History-Animation.py:411-427 | a pattern direction with quantity Q > 1 and distance D gets a quantity target and a distance target, and at every sub-frame the distance written is D / (Q - 1) times the quantity written, less one, so instances keep their spacing |
| `Interpolation.PatternDirectionTwoStalls` | Design-History-Animation/Design-History-Animation/Design-History-Animation.py:428-434 | for 1 < Q < N, direction two writes a quantity of zero at every sub-frame, while direction one writes min(j + 1, Q) and never less than one |
| `Driver.RunOperation` | Design-History-Animation/Design-History-Animation/Design-History-Animation.py:441-504 | the loop saves as many frames as the budget gives, numbered on from the counter, each showing the state the functional model predicts, and afterwards every value, expression and opacity equals its snapshot, whatever writes were rejected |
| `Driver.RestoredParams` | Design-History-Animation/Design-History-Animation/Design-History-Animation.py:500-502 | writing back every target's snapshot over a state that differs only in targeted parameters gives the pre-loop parameters exactly |
| `Driver.RestoredOpacities` | Design-History-Animation/Design-History-Animation/Design-History-Animation.py:503-504 | writing back every fade entry's snapshot gives the pre-loop opacities exactly |
| `Driver.ApplyTargetsKeys` | Design-History-Animation/Design-History-Animation/Design-History-Animation.py:449-462 | writing targets adds no parameter and removes none |
| `Driver.ApplyTargetsUntouched` | Design-History-Animation/Design-History-Animation/Design-History-Animation.py:449-462 | writing targets leaves every parameter outside the targets as it was |
| `Driver.ApplyTargetsBounded` | Design-History-Animation/Design-History-Animation/Design-History-Animation.py:449-462 | after writing targets every value is within its original's magnitude |
| `Driver.ApplyFadesFrame` | Design-History-Animation/Design-History-Animation/Design-History-Animation.py:463-468 | after the fade writes every listed shape shows its fade value and every other shape is untouched, duplicates included |
| `Driver.ParamsAfterFrame` | Design-History-Animation/Design-History-Animation/Design-History-Animation.py:447-462 | after any number of sub-frames only targeted parameters differ from the snapshot, and none exceeds its original in magnitude |
| `Driver.OpacitiesAfterFrame` | Design-History-Animation/Design-History-Animation/Design-History-Animation.py:447-468 | after a sub-frame every faded shape shows the fade value of that sub-frame and every other shape its snapshot |
| `Driver.RestoreTargetsFrame` | Design-History-Animation/Design-History-Animation/Design-History-Animation.py:500-502 | restoring a prefix of targets puts back their snapshot and leaves every other parameter alone |
| `Driver.RestoreFadesFrame` | Design-History-Animation/Design-History-Animation/Design-History-Animation.py:503-504 | restoring a prefix of fade entries puts back their snapshot and leaves every other shape alone |
| `Driver.RejectedWriteSkipsOnlyItself` | Design-History-Animation/Design-History-Animation/Design-History-Animation.py:449-462 | a rejected write keeps that parameter's previous value for that sub-frame only; an accepted one shows the stepped value as a literal |
| `Driver.FrameOpacities` | Design-History-Animation/Design-History-Animation/Design-History-Animation.py:463-468 | in every frame each faded shape shows the fade value of its snapshot opacity and every other shape its snapshot |
| `Driver.FrameParams` | Design-History-Animation/Design-History-Animation/Design-History-Animation.py:449-455 | in every frame each parameter is within its original magnitude, and an untargeted one shows its snapshot |
| `Session.SetFinalFrames` | Design-History-Animation/Design-History-Animation/Design-History-Animation.py:231-233 | a negative trailing count is stored as zero, a non-negative one as given, and nothing else in the configuration changes |
| `Session.CollectFrames` | Design-History-Animation/Design-History-Animation/Design-History-Animation.py:250-504 | the run fails exactly when the rotation step count is zero; otherwise frames are numbered 0, 1, 2, ... without gap, as many as the budgets of the animated items add up to, each taken at an animated item of the range and showing the parameters and opacities that item's sub-frame loop gives at its position; the log holds the Move and Mirror lines in order; the marker rests one past the last item not skipped; the modelled parameter and opacity maps are as before |
| `Session.AnimateItem` | Design-History-Animation/Design-History-Animation/Design-History-Animation.py:441-504 | the frames saved before the item are kept; the item adds exactly its budget of frames, which are the frames its sub-frame loop takes and continue the global numbering; the modelled parameter and opacity maps are left as before |
| `Session.TotalFrames` | Design-History-Animation/Design-History-Animation/Design-History-Animation.py:446-447 | with a non-negative trailing count the run emits the regular count per animated item, plus the trailing frames exactly when the item at end - 1 is animated |
| `Session.RegularFrames` | Design-History-Animation/Design-History-Animation/Design-History-Animation.py:446-447 | before index end - 1 each animated item emits the regular count |
| `Session.TrailingFramesAfterSet` | Design-History-Animation/Design-History-Animation/Design-History-Animation.py:231-233 | after setting the trailing count to any value, a run emits the regular count per animated item plus that value, or nothing for a negative one, when the item at end - 1 is animated |
| `FrameNames.Decimal` | Design-History-Animation/Design-History-Animation/Design-History-Animation.py:486 | the decimal digits of a number are digits, at least one, with no leading zero from 10 on |
| `FrameNames.PadZeros` | Design-History-Animation/Design-History-Animation/Design-History-Animation.py:486 | padding keeps the digits as the suffix, adds only zeros in front, and reaches the width unless the digits are longer |
| `FrameNames.ParseDecimalOfDecimal` | Design-History-Animation/Design-History-Animation/Design-History-Animation.py:486 | reading back the decimal digits of a number gives the number |
| `FrameNames.FrameNameRoundTrip` | Design-History-Animation/Design-History-Animation/Design-History-Animation.py:484-486 | the number of a frame can be read back from its file name |
| `FrameNames.FrameNamesDistinct` | Design-History-Animation/Design-History-Animation/Design-History-Animation.py:484-486 | distinct frame numbers give distinct file names, so no frame overwrites another |
| `FrameNames.FrameNameWidth` | Design-History-Animation/Design-History-Animation/Design-History-Animation.py:486 | below 100000 every frame name has exactly eleven characters |
| `ObjWriter.WriteObj` | Design-History-Animation/Design-History-Animation/Design-History-Animation.py:527-556 | the export fails exactly when some mesh's index buffer is too short for its triangles; otherwise the header totals are the sums of the per-mesh counts and the faces are every mesh's faces in order |
| `ObjWriter.WriteFaces` | Design-History-Animation/Design-History-Animation/Design-History-Animation.py:547-556 | the face lines of one mesh fail exactly when its index buffer is too short, and are otherwise its triangles' local indices plus one plus the offset, in triangle order |
| `ObjWriter.OneFacePerTriangle` | Design-History-Animation/Design-History-Animation/Design-History-Animation.py:547-556 | there is exactly one face line per triangle |
| `ObjWriter.FaceOfTriangle` | Design-History-Animation/Design-History-Animation/Design-History-Animation.py:547-556 | the face of triangle t of mesh k follows the triangles of the earlier meshes, and its numbers are the local indices plus one plus the vertex count of the earlier meshes |
| `ObjWriter.FaceNumbersInRange` | Design-History-Animation/Design-History-Animation/Design-History-Animation.py:547-556 | when every local index names a vertex of its own mesh, every face number lies between 1 and the header's vertex total |

## Left out

- The dialog and command wiring (lines 24-118 and 565-599) is host event plumbing and is not modelled. Two defects there are outside the model. The execute handler looks for an input with id `'filename'`, but the dialog creates `'foldername'`, so the folder name typed in the dialog is never used. The `doFit` input is never read back.
- The camera orbit (lines 268-278 and 470-481) is floating-point 3D geometry on host objects. Only its division by the rotation step count is modelled, as the failure of `Session.CollectFrames`.
- Image, log and file I/O are not modelled. This covers `saveAsImageFile`, the `open` and `makedirs` calls, and the float text of OBJ coordinates and normals. The log file is opened at line 283 before its directory is created at line 284, so a run into a new folder fails there. The model does not cover that.
- The links to referenced components are not modelled. A Joint's first occurrence, when it refers to a linked component, has its link broken before the fade (lines 394-401), so the opacity change reaches only that component and not every linked copy. The break is irreversible, and the run leaves the design changed (line 568). The model holds no link state, so the "as before" claims of `Session.CollectFrames` and `Session.AnimateItem` cover only the modelled parameter and opacity maps. A failure of `breakLink` is swallowed.
- The Revolve `isSymmetric` self-assignment (line 458) only nudges the host to recompute.
- `adsk.doEvents` and the mesh triangulation (lines 509-525) are host calls. Meshes are an input of `ObjWriter.WriteObj`.
- The occurrence fade branch (lines 404-410) cannot be reached and is not modelled.
- Floating point is not modelled. Values are exact rationals, so rounding in `V / N * N` and in the clamp comparison is out of scope.
- Numeric extents are modelled with one driving parameter each, read the same way for every kind. The code reads `.distance` from an extrusion's numeric extent (lines 348 and 360) and `.angle` from a revolve's (line 386). An extent of a numeric kind that lacks that attribute, such as an angle extent on an extrusion, raises there. These lines are outside the `try` of lines 287-335, so the error ends the whole run. The model steps such an extent instead.
- Restore writes and opacity writes are assumed to succeed. In the code, an exception there, or in target extraction after the marker is set, ends the whole run through the command handler.
- Saving an OBJ file beside each frame is not connected to the frame loop. `ObjWriter.WriteObj` models a single export.
- `ObjWriter.WriteObj`: returns only success or failure. The partial file left by a failure is not modelled.

=== FILE: base.dfy ===
/** Small shared vocabulary: an optional value, the two pieces of Python
    arithmetic the timelapse engine relies on (`abs` and the truncating
    `int(...)` conversion of a float), and the order facts about products
    that the proofs over exact rationals need. */
module Base {

  /** A value that may be absent (a Python attribute that is `None`). */
  datatype Option<+T> = None | Some(value: T)

  /** Python's `abs` on a float, over exact rationals. */
  function Abs(x: real): (r: real)
    ensures r >= 0.0
    ensures r == x || r == -x
  {
    if x < 0.0 then -x else x
  }

  /** Python's `int(x)` on a float: rounds toward zero, unlike Dafny's
      `.Floor`, which rounds toward negative infinity. */
  function Trunc(x: real): (r: int)
    ensures x >= 0.0 ==> r as real <= x < r as real + 1.0
    ensures x < 0.0 ==> r as real - 1.0 < x <= r as real
  {
    if x >= 0.0 then x.Floor else -((-x).Floor)
  }

  /** Multiplying by a positive factor keeps a strict order. */
  lemma MulLess(a: real, b: real, c: real)
    requires a < b && c > 0.0
    ensures a * c < b * c
  {
    assert (b - a) * c > 0.0;
  }

  /** Multiplying by a non-negative factor keeps a weak order. */
  lemma MulLe(a: real, b: real, c: real)
    requires a <= b && c >= 0.0
    ensures a * c <= b * c
  {
    assert (b - a) * c >= 0.0;
  }

  /** `MulLess` over named products, so that callers stay linear. */
  lemma ProductLess(p: real, q: real, k: real, P: real, R: real)
    requires p < q && k > 0.0 && P == p * k && R == q * k
    ensures P < R
  {
    MulLess(p, q, k);
  }

  /** `MulLe` over named products, so that callers stay linear. */
  lemma ProductLe(p: real, q: real, k: real, P: real, R: real)
    requires p <= q && k >= 0.0 && P == p * k && R == q * k
    ensures P <= R
  {
    MulLe(p, q, k);
  }

  /** Division by a positive `d` against one and against zero. */
  lemma DivOrder(q: real, d: real)
    requires d > 0.0
    ensures q / d * d == q
    ensures q >= d <==> q / d >= 1.0
    ensures q >= 0.0 <==> q / d >= 0.0
  {
    var x := q / d;
    assert x * d == q;
    if x < 1.0 {
      ProductLess(x, 1.0, d, q, d);
    } else {
      ProductLe(1.0, x, d, d, q);
    }
    if x < 0.0 {
      ProductLess(x, 0.0, d, q, 0.0);
    } else {
      ProductLe(0.0, x, d, 0.0, q);
    }
  }

  /** Scaling `q` down by `n >= 1` and truncating: from `q >= n` on, a step
      of at least one whose `n` multiples do not pass `q`; below `n`, a step
      under one, which is zero for a non-negative `q`. */
  lemma TruncScaled(q: real, n: int)
    requires n >= 1
    ensures var s := Trunc(q / n as real);
      && (q >= n as real ==> s >= 1 && s as real * n as real <= q < (s + 1) as real * n as real)
      && (q < n as real ==> s < 1)
      && (0.0 <= q < n as real ==> s == 0)
  {
    var d := n as real;
    var x := q / d;
    var s := Trunc(x);
    DivOrder(q, d);
    if q >= d {
      ProductLe(s as real, x, d, s as real * d, q);
      ProductLess(x, (s + 1) as real, d, q, (s + 1) as real * d);
    }
  }

  /** The magnitude of a product. */
  lemma AbsMul(a: real, b: real)
    ensures Abs(a * b) == Abs(a) * Abs(b)
  {
    if a < 0.0 && b < 0.0 {
      assert a * b == (-a) * (-b);
    } else if a < 0.0 {
      assert -(a * b) == (-a) * b;
    } else if b < 0.0 {
      assert -(a * b) == a * (-b);
    }
  }

  /** Scaling two values by the same factor keeps their order of magnitude. */
  lemma ScaleLe(c: real, x: real, y: real)
    requires Abs(x) <= Abs(y)
    ensures Abs(c * x) <= Abs(c * y)
  {
    AbsMul(c, x);
    AbsMul(c, y);
    ProductLe(Abs(x), Abs(y), Abs(c), Abs(c * x), Abs(c * y));
  }

  /** Scaling by a non-zero factor keeps a strict order of magnitude. */
  lemma ScaleLess(c: real, x: real, y: real)
    requires Abs(x) < Abs(y) && c != 0.0
    ensures Abs(c * x) < Abs(c * y)
  {
    AbsMul(c, x);
    AbsMul(c, y);
    ProductLess(Abs(x), Abs(y), Abs(c), Abs(c * x), Abs(c * y));
  }

  /** Moving a positive divisor between the factors of a product. */
  lemma DivScale(v: real, k: real, d: real)
    requires d > 0.0
    ensures v / d * k == v * (k / d)
    ensures v * k / d == v * (k / d)
  {
  }

  /** Division by a positive `d` keeps a strict order. */
  lemma DivLess(a: real, b: real, d: real)
    requires a < b && d > 0.0
    ensures a / d < b / d
  {
    DivOrder(a, d);
    DivOrder(b, d);
    if a / d >= b / d {
      ProductLe(b / d, a / d, d, b, a);
    }
  }

  /** `q / d` is at most one exactly when `q` is at most `d`. */
  lemma DivAtMostOne(q: real, d: real)
    requires d > 0.0
    ensures q <= d <==> q / d <= 1.0
  {
    var x := q / d;
    DivOrder(q, d);
    if x > 1.0 {
      ProductLess(1.0, x, d, d, q);
    } else {
      ProductLe(x, 1.0, d, q, d);
    }
  }
}

=== FILE: dispatch.dfy ===
/** Per-item dispatch: decides whether a timeline item is skipped, only
    logged, or animated, and for an animated item extracts the parameters
    to interpolate and the shapes to fade in
    (Design-History-Animation.py, `collectFrames`, lines 286-440). */
module Dispatch {
  import opened Base
  import opened Timeline
  import opened Extents

  /** One line of the run's diagnostic log. */
  datatype LogLine =
    | MoveTransform(index: int, transform: seq<real>)
    | MoveError(index: int)
    | MirrorBodies(index: int, count: nat)
    | MirrorInputs(index: int, count: nat)
    | MirrorError(index: int)

  /** What the engine does with one timeline item. */
  datatype Disposition =
    | Skip                        // no marker move, no log, no frames
    | Logged(lines: seq<LogLine>) // marker moved, log written, no frames
    | Animate(entity: Entity)     // marker moved, sub-frame loop runs

  /** Entity kinds that are ignored outright, before the marker moves. */
  predicate IsIgnoredKind(e: Entity) {
    || e.OccurrenceEntity? || e.Sketch? || e.ConstructionPlane? || e.ConstructionAxis?
    || e.ConstructionPoint? || e.ThreadFeature? || e.Combine? || e.Canvas?
  }

  /** The log line of a Move at position `i`; reading the transform may fail. */
  function MoveLog(i: int, transform: Option<seq<real>>): seq<LogLine> {
    if transform.Some? then [MoveTransform(i, transform.value)] else [MoveError(i)]
  }

  /** The log lines of a Mirror at position `i`. The body count is printed
      before the input count is read, so a failure on the second read leaves
      the first line in place. */
  function MirrorLog(i: int, bodyCount: Option<nat>, inputCount: Option<nat>): seq<LogLine> {
    if bodyCount.None? then [MirrorError(i)]
    else if inputCount.None? then [MirrorBodies(i, bodyCount.value), MirrorError(i)]
    else [MirrorBodies(i, bodyCount.value), MirrorInputs(i, inputCount.value)]
  }

  /** Classifies the item at position `i`. An item is skipped when it cannot
      be read, is suppressed, is a group, has no entity or is of an ignored
      kind; Move and Mirror are logged; everything else is animated, with
      unrecognised kinds falling through to an animation with no targets. */
  function Classify(item: TimelineItem, i: int): (d: Disposition)
    ensures d.Skip? <==>
      item.Unreadable? || item.isSuppressed || item.isGroup || item.entity.None? || IsIgnoredKind(item.entity.value)
    ensures d.Logged? ==>
      && item.Item? && item.entity.Some?
      && (item.entity.value.Move? || item.entity.value.Mirror?)
      && 1 <= |d.lines| <= 2
      && forall k :: 0 <= k < |d.lines| ==> d.lines[k].index == i
    ensures d.Animate? ==>
      && item.Item? && item.entity == Some(d.entity)
      && !d.entity.Move? && !d.entity.Mirror? && !IsIgnoredKind(d.entity)
  {
    if item.Unreadable? then Skip
    else if item.isSuppressed then Skip
    else if item.isGroup then Skip
    else if item.entity.None? then Skip
    else
      match item.entity.value
      case OccurrenceEntity(_) => Skip
      case Sketch => Skip
      case ConstructionPlane => Skip
      case ConstructionAxis => Skip
      case ConstructionPoint => Skip
      case ThreadFeature => Skip
      case Combine => Skip
      case Canvas => Skip
      case Move(t) => Logged(MoveLog(i, t))
      case Mirror(b, n) => Logged(MirrorLog(i, b, n))
      case _ => Animate(item.entity.value)
  }

  /** An inserted occurrence is always skipped, so the fade-in branch the
      code keeps for occurrences further down can never run. */
  lemma OccurrenceAlwaysSkipped(isSuppressed: bool, isGroup: bool, occ: Occurrence, i: int)
    ensures Classify(Item(isSuppressed, isGroup, Some(OccurrenceEntity(occ))), i) == Skip
  {
  }

  /** One parameter to interpolate: sub-frame j writes
      `stepSize * (j + 1) + stepOffset`. */
  datatype Target = Target(param: ParamId, stepSize: real, stepOffset: real)

  /** Everything one item animates: parameters and shapes to fade in. */
  datatype Plan = Plan(targets: seq<Target>, fades: seq<ShapeId>)
  {
    function Then(next: Plan): Plan {
      Plan(targets + next.targets, fades + next.fades)
    }
  }

  const NoPlan := Plan([], [])

  /** A parameter stepped in `n` equal parts, zero offset. */
  function EvenTarget(p: ParamId, params: map<ParamId, Parameter>, n: int): (t: Target)
    requires p in params && n >= 1
    ensures t.param == p && t.stepOffset == 0.0
    ensures t.stepSize * n as real == params[p].value
  {
    Target(p, params[p].value / n as real, 0.0)
  }

  /** New-body (3) and new-component (4) extrusions can be faded in. */
  predicate IsFadeOperation(op: FeatureOperation)
    ensures IsFadeOperation(op) <==> op.NewBodyOperation? || op.NewComponentOperation?
  {
    op.Code() == 3 || op.Code() == 4
  }

  /** One side of an extrusion: its driver when numeric, otherwise all the
      feature's bodies when it creates a body or component. */
  function ExtrudeSide(extent: ExtentDefinition, op: FeatureOperation, bodies: seq<ShapeId>,
                       params: map<ParamId, Parameter>, n: int): Plan
    requires ExtentParams(extent) <= params.Keys && n >= 1
  {
    if IsNumericExtent(extent) then Plan([EvenTarget(DrivingParam(extent), params, n)], [])
    else if IsFadeOperation(op) then Plan([], bodies)
    else NoPlan
  }

  /** The two directions of a rectangular pattern. */
  datatype Direction = DirectionOne | DirectionTwo

  /** How many instances a pattern direction gains per sub-frame:
      `int(q / n)`, raised to at least one in direction one only. */
  function QuantityStep(dir: Direction, q: real, n: int): (s: int)
    requires n >= 1
    ensures dir.DirectionOne? ==> s >= 1
    ensures q >= n as real ==> s as real * n as real <= q < (s + 1) as real * n as real
    ensures dir.DirectionOne? && q < n as real ==> s == 1
    ensures dir.DirectionTwo? && 0.0 <= q < n as real ==> s == 0
    ensures q >= 0.0 ==> s >= 0
  {
    var s := Trunc(q / n as real);
    TruncScaled(q, n);
    if dir.DirectionOne? && s < 1 then 1 else s
  }

  /** The targets of one pattern direction. A quantity of exactly one is
      left alone; otherwise the quantity ramps by its step and the paired
      distance, if any, grows so that the spacing between instances stays
      `distance / (quantity - 1)`. */
  function PatternDirection(dir: Direction, quantity: Option<ParamId>, distance: Option<ParamId>,
                            params: map<ParamId, Parameter>, n: int): seq<Target>
    requires OptionSet(quantity) + OptionSet(distance) <= params.Keys && n >= 1
  {
    if quantity.None? then []
    else
      var q := params[quantity.value].value;
      if q == 1.0 then []
      else
        var s := QuantityStep(dir, q, n);
        var count := Target(quantity.value, s as real, 0.0);
        if distance.None? then [count]
        else
          var spacing := params[distance.value].value / (q - 1.0);
          [count, Target(distance.value, spacing * s as real, -spacing)]
  }

  /** The plan of an animated entity. Revolve and extrude sides step their
      driver evenly, a joint fades in the component of its first occurrence,
      a rectangular pattern ramps its quantities and distances, and every
      other kind animates nothing. */
  function PlanFor(e: Entity, params: map<ParamId, Parameter>, n: int): (plan: Plan)
    requires EntityParams(e) <= params.Keys && n >= 1
    ensures forall k :: 0 <= k < |plan.targets| ==> plan.targets[k].param in EntityParams(e)
    ensures forall k :: 0 <= k < |plan.fades| ==> plan.fades[k] in EntityShapes(e)
    ensures !(e.Extrude? || e.Revolve? || e.Joint? || e.RectangularPattern?) ==> plan == NoPlan
    ensures e.Revolve? && IsNumericExtent(e.extentDefinition) ==>
      plan.fades == [] && plan.targets == [EvenTarget(DrivingParam(e.extentDefinition), params, n)]
    ensures e.Revolve? && !IsNumericExtent(e.extentDefinition) ==> plan == NoPlan
    ensures e.Joint? ==>
      plan.targets == [] && plan.fades == (if e.occurrenceOne.Some? then [e.occurrenceOne.value.component] else [])
    ensures e.RectangularPattern? ==> plan.fades == []
  {
    match e
    case Extrude(one, hasTwo, two, op, bodies) =>
      ExtrudeSide(one, op, bodies, params, n).Then(
        if hasTwo then ExtrudeSide(two, op, bodies, params, n) else NoPlan)
    case Revolve(ext) =>
      if IsNumericExtent(ext) then Plan([EvenTarget(DrivingParam(ext), params, n)], []) else NoPlan
    case Joint(occ) =>
      if occ.Some? then Plan([], [occ.value.component]) else NoPlan
    case RectangularPattern(q1, d1, q2, d2) =>
      Plan(PatternDirection(DirectionOne, q1, d1, params, n)
           + PatternDirection(DirectionTwo, q2, d2, params, n), [])
    case _ => NoPlan
  }

  /** An extrusion with a non-numeric first side that creates a body or
      component lists its bodies once per non-numeric side: twice when the
      second side exists and is non-numeric too, once when there is no
      second side, whatever the unread second extent is. */
  lemma ExtrudeFadesBodiesPerSide(one: ExtentDefinition, two: ExtentDefinition, op: FeatureOperation,
                                  bodies: seq<ShapeId>, params: map<ParamId, Parameter>, n: int)
    requires n >= 1 && IsFadeOperation(op) && !IsNumericExtent(one)
    ensures !IsNumericExtent(two) ==> PlanFor(Extrude(one, true, two, op, bodies), params, n) == Plan([], bodies + bodies)
    ensures PlanFor(Extrude(one, false, two, op, bodies), params, n) == Plan([], bodies)
  {
  }

  /** A numeric extrusion side never fades: a body is only faded in when
      its side has no numeric driver. */
  lemma ExtrudeNumericSidesOnly(one: ExtentDefinition, hasTwo: bool, two: ExtentDefinition,
                                op: FeatureOperation, bodies: seq<ShapeId>,
                                params: map<ParamId, Parameter>, n: int)
    requires n >= 1 && EntityParams(Extrude(one, hasTwo, two, op, bodies)) <= params.Keys
    requires IsNumericExtent(one) && (!hasTwo || IsNumericExtent(two))
    ensures var plan := PlanFor(Extrude(one, hasTwo, two, op, bodies), params, n);
      && plan.fades == []
      && |plan.targets| == (if hasTwo then 2 else 1)
      && plan.targets[0] == EvenTarget(DrivingParam(one), params, n)
      && (hasTwo ==> plan.targets[1] == EvenTarget(DrivingParam(two), params, n))
  {
  }

  /** An extrusion with one numeric and one non-numeric side steps the
      numeric side's driver, whichever side it is, and fades its bodies
      once when it creates a body or component and not at all otherwise. */
  lemma ExtrudeMixedSides(one: ExtentDefinition, two: ExtentDefinition, op: FeatureOperation,
                          bodies: seq<ShapeId>, params: map<ParamId, Parameter>, n: int)
    requires n >= 1
    requires IsNumericExtent(one) != IsNumericExtent(two)
    requires EntityParams(Extrude(one, true, two, op, bodies)) <= params.Keys
    ensures var numeric := if IsNumericExtent(one) then one else two;
      PlanFor(Extrude(one, true, two, op, bodies), params, n)
        == Plan([EvenTarget(DrivingParam(numeric), params, n)], if IsFadeOperation(op) then bodies else [])
  {
  }

  /** An extrusion that neither creates a body nor a component fades
      nothing and steps exactly its numeric sides, first side first; a
      non-numeric side contributes nothing at all. */
  lemma ExtrudeOtherOperationsNoFade(one: ExtentDefinition, hasTwo: bool, two: ExtentDefinition,
                                     op: FeatureOperation, bodies: seq<ShapeId>,
                                     params: map<ParamId, Parameter>, n: int)
    requires n >= 1 && !IsFadeOperation(op)
    requires EntityParams(Extrude(one, hasTwo, two, op, bodies)) <= params.Keys
    ensures var plan := PlanFor(Extrude(one, hasTwo, two, op, bodies), params, n);
      && plan.fades == []
      && plan.targets
         == (if IsNumericExtent(one) then [EvenTarget(DrivingParam(one), params, n)] else [])
          + (if hasTwo && IsNumericExtent(two) then [EvenTarget(DrivingParam(two), params, n)] else [])
  {
  }

  /** A rectangular pattern animates its first direction's targets followed
      by its second's; `PatternDirectionTargets` gives each direction's. */
  lemma PatternPlan(q1: Option<ParamId>, d1: Option<ParamId>, q2: Option<ParamId>, d2: Option<ParamId>,
                    params: map<ParamId, Parameter>, n: int)
    requires n >= 1 && EntityParams(RectangularPattern(q1, d1, q2, d2)) <= params.Keys
    ensures PlanFor(RectangularPattern(q1, d1, q2, d2), params, n)
         == Plan(PatternDirection(DirectionOne, q1, d1, params, n) + PatternDirection(DirectionTwo, q2, d2, params, n), [])
  {
  }

  /** A pattern direction is left alone when it has no quantity or a
      quantity of exactly one; otherwise it ramps its quantity `Q` from zero
      by the quantity step and, when it has a distance `D`, steps that
      distance by `D / (Q - 1)` times the quantity step from `-D / (Q - 1)`. */
  lemma PatternDirectionTargets(dir: Direction, q: Option<ParamId>, d: Option<ParamId>,
                                params: map<ParamId, Parameter>, n: int)
    requires n >= 1 && OptionSet(q) + OptionSet(d) <= params.Keys
    ensures var ts := PatternDirection(dir, q, d, params, n);
      && (q.None? || params[q.value].value == 1.0 ==> ts == [])
      && (q.Some? && params[q.value].value != 1.0 ==>
            var Q := params[q.value].value;
            var s := QuantityStep(dir, Q, n) as real;
            && |ts| == (if d.Some? then 2 else 1)
            && ts[0] == Target(q.value, s, 0.0)
            && (d.Some? ==>
                  var sp := params[d.value].value / (Q - 1.0);
                  ts[1] == Target(d.value, sp * s, -sp)))
  {
    if q.Some? && params[q.value].value != 1.0 {
      var Q := params[q.value].value;
      var s := QuantityStep(dir, Q, n) as real;
      var count := Target(q.value, s, 0.0);
      if d.Some? {
        var sp := params[d.value].value / (Q - 1.0);
        var ts := PatternDirection(dir, q, d, params, n);
        assert |ts| == 2;
        assert ts[0] == count;
        assert ts[1].param == d.value;
        assert ts[1].stepOffset == -sp;
        assert ts[1].stepSize == sp * s;
      } else {
        assert PatternDirection(dir, q, d, params, n) == [count];
      }
    }
  }

  /** A Move is logged, and only logged: one line with its transform when
      that can be read, and the error line otherwise. */
  lemma MoveLogged(transform: Option<seq<real>>, i: int)
    ensures transform.Some? ==>
      Classify(Item(false, false, Some(Move(transform))), i) == Logged([MoveTransform(i, transform.value)])
    ensures transform.None? ==>
      Classify(Item(false, false, Some(Move(transform))), i) == Logged([MoveError(i)])
  {
  }

  /** A Mirror whose input count cannot be read keeps the body-count line
      already written and adds the error line after it. */
  lemma MirrorPartialLog(bodyCount: nat, i: int)
    ensures Classify(Item(false, false, Some(Mirror(Some(bodyCount), None))), i)
         == Logged([MirrorBodies(i, bodyCount), MirrorError(i)])
  {
  }
}

=== FILE: driver.dfy ===
/** The sub-frame loop of one animated item: snapshot, step every target
    and fade every shape once per sub-frame, record the frame, then restore
    (Design-History-Animation.py, `collectFrames`, lines 441-504). */
module Driver {
  import opened Base
  import opened Timeline
  import opened Dispatch
  import opened Interpolation

  /** One host write the sub-frame loop attempts: the value of target
      `target` of the item at `item`, at sub-frame `step`. A write in the
      rejected set raises inside the host and is skipped. */
  datatype Write = Write(item: int, step: nat, target: nat)

  /** One saved frame: its global number, the item and sub-frame it was
      taken at, and the parameters and opacities the image shows. */
  datatype Frame = Frame(number: int, item: int, step: nat,
                         params: map<ParamId, Parameter>, opacities: map<ShapeId, real>)

  /** The host holds a live object for every target and every faded shape. */
  predicate Covers(plan: Plan, params: map<ParamId, Parameter>, opacities: map<ShapeId, real>) {
    && (forall k :: 0 <= k < |plan.targets| ==> plan.targets[k].param in params)
    && (forall k :: 0 <= k < |plan.fades| ==> plan.fades[k] in opacities)
  }

  /** The parameters driven by the first `k` targets. */
  function TargetParams(ts: seq<Target>, k: nat): set<ParamId>
    requires k <= |ts|
  {
    set i | 0 <= i < k :: ts[i].param
  }

  /** The shapes faded by the first `k` fade entries. */
  function FadeShapes(fs: seq<ShapeId>, k: nat): set<ShapeId>
    requires k <= |fs|
  {
    set i | 0 <= i < k :: fs[i]
  }

  /** The parameters after the first `k` targets have been written at
      sub-frame `j`, starting from `cur`. A written parameter takes the
      stepped value as a plain literal; a rejected write leaves it alone. */
  function ApplyTargets(cur: map<ParamId, Parameter>, params0: map<ParamId, Parameter>, ts: seq<Target>,
                        item: int, j: nat, rejected: set<Write>, k: nat): map<ParamId, Parameter>
    requires k <= |ts|
    requires forall i :: 0 <= i < |ts| ==> ts[i].param in params0
    decreases k
  {
    if k == 0 then cur
    else
      var m := ApplyTargets(cur, params0, ts, item, j, rejected, k - 1);
      var t := ts[k - 1];
      if Write(item, j, k - 1) in rejected then m
      else
        var v := StepValue(t, params0[t.param].value, j);
        m[t.param := Parameter(v, Literal(v))]
  }

  /** The opacities after the first `k` fade entries have been written at
      sub-frame `j`, starting from `cur`. */
  function ApplyFades(cur: map<ShapeId, real>, opac0: map<ShapeId, real>, fs: seq<ShapeId>,
                      j: nat, n: int, k: nat): map<ShapeId, real>
    requires k <= |fs| && n >= 1
    requires forall i :: 0 <= i < |fs| ==> fs[i] in opac0
    decreases k
  {
    if k == 0 then cur
    else ApplyFades(cur, opac0, fs, j, n, k - 1)[fs[k - 1] := FadeValue(opac0[fs[k - 1]], j, n)]
  }

  /** The parameters once `steps` sub-frames have run. */
  function ParamsAfter(params0: map<ParamId, Parameter>, ts: seq<Target>, item: int,
                       rejected: set<Write>, steps: nat): map<ParamId, Parameter>
    requires forall i :: 0 <= i < |ts| ==> ts[i].param in params0
    decreases steps
  {
    if steps == 0 then params0
    else ApplyTargets(ParamsAfter(params0, ts, item, rejected, steps - 1), params0, ts,
                      item, steps - 1, rejected, |ts|)
  }

  /** The opacities once `steps` sub-frames have run. */
  function OpacitiesAfter(opac0: map<ShapeId, real>, fs: seq<ShapeId>, n: int, steps: nat): map<ShapeId, real>
    requires n >= 1
    requires forall i :: 0 <= i < |fs| ==> fs[i] in opac0
    decreases steps
  {
    if steps == 0 then opac0
    else ApplyFades(OpacitiesAfter(opac0, fs, n, steps - 1), opac0, fs, steps - 1, n, |fs|)
  }

  /** Writes back the snapshot of the first `k` targets, value and
      expression. */
  function RestoreTargets(cur: map<ParamId, Parameter>, params0: map<ParamId, Parameter>,
                          ts: seq<Target>, k: nat): map<ParamId, Parameter>
    requires k <= |ts|
    requires forall i :: 0 <= i < |ts| ==> ts[i].param in params0
    decreases k
  {
    if k == 0 then cur
    else
      var p := ts[k - 1].param;
      RestoreTargets(cur, params0, ts, k - 1)[p := params0[p]]
  }

  /** Writes back the snapshot opacity of the first `k` fade entries. */
  function RestoreFades(cur: map<ShapeId, real>, opac0: map<ShapeId, real>, fs: seq<ShapeId>, k: nat)
    : map<ShapeId, real>
    requires k <= |fs|
    requires forall i :: 0 <= i < |fs| ==> fs[i] in opac0
    decreases k
  {
    if k == 0 then cur
    else RestoreFades(cur, opac0, fs, k - 1)[fs[k - 1] := opac0[fs[k - 1]]]
  }

  /** Writing targets touches no parameter outside them, adds none, and
      keeps every value within its original magnitude. */
  lemma {:induction false} ApplyTargetsFrame(cur: map<ParamId, Parameter>, params0: map<ParamId, Parameter>,
                                             ts: seq<Target>, item: int, j: nat, rejected: set<Write>, k: nat)
    requires k <= |ts| && cur.Keys == params0.Keys
    requires forall i :: 0 <= i < |ts| ==> ts[i].param in params0
    requires forall p :: p in cur ==> Abs(cur[p].value) <= Abs(params0[p].value)
    ensures var r := ApplyTargets(cur, params0, ts, item, j, rejected, k);
      && r.Keys == cur.Keys
      && (forall p :: p in cur && p !in TargetParams(ts, k) ==> r[p] == cur[p])
      && (forall p :: p in r ==> Abs(r[p].value) <= Abs(params0[p].value))
  {
    ApplyTargetsKeys(cur, params0, ts, item, j, rejected, k);
    ApplyTargetsUntouched(cur, params0, ts, item, j, rejected, k);
    ApplyTargetsBounded(cur, params0, ts, item, j, rejected, k);
  }

  /** Writing targets adds no parameter. */
  lemma {:induction false} ApplyTargetsKeys(cur: map<ParamId, Parameter>, params0: map<ParamId, Parameter>,
                                            ts: seq<Target>, item: int, j: nat, rejected: set<Write>, k: nat)
    requires k <= |ts| && cur.Keys == params0.Keys
    requires forall i :: 0 <= i < |ts| ==> ts[i].param in params0
    ensures ApplyTargets(cur, params0, ts, item, j, rejected, k).Keys == cur.Keys
  {
    if k > 0 {
      ApplyTargetsKeys(cur, params0, ts, item, j, rejected, k - 1);
    }
  }

  /** Writing targets leaves every untargeted parameter alone. */
  lemma {:induction false} ApplyTargetsUntouched(cur: map<ParamId, Parameter>, params0: map<ParamId, Parameter>,
                                                 ts: seq<Target>, item: int, j: nat, rejected: set<Write>, k: nat)
    requires k <= |ts| && cur.Keys == params0.Keys
    requires forall i :: 0 <= i < |ts| ==> ts[i].param in params0
    ensures var r := ApplyTargets(cur, params0, ts, item, j, rejected, k);
      forall p :: p in cur && p !in TargetParams(ts, k) ==> p in r && r[p] == cur[p]
  {
    if k > 0 {
      ApplyTargetsUntouched(cur, params0, ts, item, j, rejected, k - 1);
      assert TargetParams(ts, k) == TargetParams(ts, k - 1) + {ts[k - 1].param};
    }
  }

  /** Every value written is within its original's magnitude. */
  lemma {:induction false} ApplyTargetsBounded(cur: map<ParamId, Parameter>, params0: map<ParamId, Parameter>,
                                               ts: seq<Target>, item: int, j: nat, rejected: set<Write>, k: nat)
    requires k <= |ts| && cur.Keys == params0.Keys
    requires forall i :: 0 <= i < |ts| ==> ts[i].param in params0
    requires forall p :: p in cur ==> Abs(cur[p].value) <= Abs(params0[p].value)
    ensures var r := ApplyTargets(cur, params0, ts, item, j, rejected, k);
      forall p :: p in r ==> p in params0 && Abs(r[p].value) <= Abs(params0[p].value)
  {
    if k > 0 {
      ApplyTargetsBounded(cur, params0, ts, item, j, rejected, k - 1);
    }
  }

  /** Fading shows every listed shape at its fade value and touches no
      other shape. */
  lemma {:induction false} ApplyFadesFrame(cur: map<ShapeId, real>, opac0: map<ShapeId, real>, fs: seq<ShapeId>,
                                           j: nat, n: int, k: nat)
    requires k <= |fs| && n >= 1 && cur.Keys == opac0.Keys
    requires forall i :: 0 <= i < |fs| ==> fs[i] in opac0
    ensures var r := ApplyFades(cur, opac0, fs, j, n, k);
      && r.Keys == cur.Keys
      && (forall x :: x in cur && x !in FadeShapes(fs, k) ==> r[x] == cur[x])
      && (forall x :: x in FadeShapes(fs, k) ==> r[x] == FadeValue(opac0[x], j, n))
  {
    if k > 0 {
      ApplyFadesFrame(cur, opac0, fs, j, n, k - 1);
      assert FadeShapes(fs, k) == FadeShapes(fs, k - 1) + {fs[k - 1]};
    }
  }

  /** After any number of sub-frames only targeted parameters differ from
      the snapshot, and none exceeds its original in magnitude. */
  lemma {:induction false} ParamsAfterFrame(params0: map<ParamId, Parameter>, ts: seq<Target>, item: int,
                                            rejected: set<Write>, steps: nat)
    requires forall i :: 0 <= i < |ts| ==> ts[i].param in params0
    ensures var r := ParamsAfter(params0, ts, item, rejected, steps);
      && r.Keys == params0.Keys
      && (forall p :: p in params0 && p !in TargetParams(ts, |ts|) ==> r[p] == params0[p])
      && (forall p :: p in r ==> Abs(r[p].value) <= Abs(params0[p].value))
  {
    if steps > 0 {
      var prev := ParamsAfter(params0, ts, item, rejected, steps - 1);
      ParamsAfterFrame(params0, ts, item, rejected, steps - 1);
      ApplyTargetsFrame(prev, params0, ts, item, steps - 1, rejected, |ts|);
    }
  }

  /** After `steps >= 1` sub-frames every faded shape shows the fade value
      of the last sub-frame and every other shape its snapshot opacity. */
  lemma {:induction false} OpacitiesAfterFrame(opac0: map<ShapeId, real>, fs: seq<ShapeId>, n: int, steps: nat)
    requires n >= 1
    requires forall i :: 0 <= i < |fs| ==> fs[i] in opac0
    ensures var r := OpacitiesAfter(opac0, fs, n, steps);
      && r.Keys == opac0.Keys
      && (forall x :: x in opac0 && x !in FadeShapes(fs, |fs|) ==> r[x] == opac0[x])
      && (steps >= 1 ==> forall x :: x in FadeShapes(fs, |fs|) ==> r[x] == FadeValue(opac0[x], steps - 1, n))
  {
    if steps > 0 {
      var prev := OpacitiesAfter(opac0, fs, n, steps - 1);
      OpacitiesAfterFrame(opac0, fs, n, steps - 1);
      ApplyFadesFrame(prev, opac0, fs, steps - 1, n, |fs|);
    }
  }

  /** Restoring the first `k` targets puts their snapshot back and leaves
      every other parameter alone. */
  lemma {:induction false} RestoreTargetsFrame(cur: map<ParamId, Parameter>, params0: map<ParamId, Parameter>,
                                               ts: seq<Target>, k: nat)
    requires k <= |ts|
    requires forall i :: 0 <= i < |ts| ==> ts[i].param in params0
    ensures var r := RestoreTargets(cur, params0, ts, k);
      && r.Keys == cur.Keys + TargetParams(ts, k)
      && (forall p :: p in TargetParams(ts, k) ==> r[p] == params0[p])
      && (forall p :: p in cur && p !in TargetParams(ts, k) ==> r[p] == cur[p])
  {
    if k > 0 {
      RestoreTargetsFrame(cur, params0, ts, k - 1);
      assert TargetParams(ts, k) == TargetParams(ts, k - 1) + {ts[k - 1].param};
    }
  }

  /** Restoring the first `k` fade entries puts their snapshot back and
      leaves every other shape alone. */
  lemma {:induction false} RestoreFadesFrame(cur: map<ShapeId, real>, opac0: map<ShapeId, real>,
                                             fs: seq<ShapeId>, k: nat)
    requires k <= |fs|
    requires forall i :: 0 <= i < |fs| ==> fs[i] in opac0
    ensures var r := RestoreFades(cur, opac0, fs, k);
      && r.Keys == cur.Keys + FadeShapes(fs, k)
      && (forall x :: x in FadeShapes(fs, k) ==> r[x] == opac0[x])
      && (forall x :: x in cur && x !in FadeShapes(fs, k) ==> r[x] == cur[x])
  {
    if k > 0 {
      RestoreFadesFrame(cur, opac0, fs, k - 1);
      assert FadeShapes(fs, k) == FadeShapes(fs, k - 1) + {fs[k - 1]};
    }
  }

  /** A parameter that no earlier target drives still holds its value. */
  lemma {:induction false} ApplyTargetsBefore(cur: map<ParamId, Parameter>, params0: map<ParamId, Parameter>,
                                              ts: seq<Target>, item: int, j: nat, rejected: set<Write>,
                                              k: nat, p: ParamId)
    requires k <= |ts| && p in cur
    requires forall i :: 0 <= i < |ts| ==> ts[i].param in params0
    requires forall i :: 0 <= i < k ==> ts[i].param != p
    ensures var r := ApplyTargets(cur, params0, ts, item, j, rejected, k);
      p in r && r[p] == cur[p]
  {
    if k > 0 {
      ApplyTargetsBefore(cur, params0, ts, item, j, rejected, k - 1, p);
    }
  }

  /** Once target `k`, the only one driving its parameter, has been
      written or rejected, later targets leave that parameter alone. */
  lemma {:induction false} ApplyTargetsOnly(cur: map<ParamId, Parameter>, params0: map<ParamId, Parameter>,
                                            ts: seq<Target>, item: int, j: nat, rejected: set<Write>,
                                            k: nat, k2: nat)
    requires k < k2 <= |ts| && ts[k].param in cur
    requires forall i :: 0 <= i < |ts| ==> ts[i].param in params0
    requires forall i :: 0 <= i < |ts| && i != k ==> ts[i].param != ts[k].param
    ensures var p := ts[k].param;
      var v := StepValue(ts[k], params0[p].value, j);
      var r := ApplyTargets(cur, params0, ts, item, j, rejected, k2);
      && p in r
      && r[p] == (if Write(item, j, k) in rejected then cur[p] else Parameter(v, Literal(v)))
  {
    if k2 == k + 1 {
      ApplyTargetsBefore(cur, params0, ts, item, j, rejected, k, ts[k].param);
    } else {
      ApplyTargetsOnly(cur, params0, ts, item, j, rejected, k, k2 - 1);
    }
  }

  /** A rejected write skips only that target for that sub-frame: a
      parameter driven by a single target takes the stepped value as a
      literal when its write is accepted and keeps the value of the
      previous sub-frame when it is rejected. */
  lemma RejectedWriteSkipsOnlyItself(params0: map<ParamId, Parameter>, ts: seq<Target>, item: int,
                                     rejected: set<Write>, j: nat, k: nat)
    requires k < |ts|
    requires forall i :: 0 <= i < |ts| ==> ts[i].param in params0
    requires forall i :: 0 <= i < |ts| && i != k ==> ts[i].param != ts[k].param
    ensures var p := ts[k].param;
      var v := StepValue(ts[k], params0[p].value, j);
      var before := ParamsAfter(params0, ts, item, rejected, j);
      var after := ParamsAfter(params0, ts, item, rejected, j + 1);
      && p in before && p in after
      && (Write(item, j, k) in rejected ==> after[p] == before[p])
      && (Write(item, j, k) !in rejected ==> after[p] == Parameter(v, Literal(v)))
  {
    ParamsAfterFrame(params0, ts, item, rejected, j);
    ApplyTargetsOnly(ParamsAfter(params0, ts, item, rejected, j), params0, ts, item, j, rejected, k, |ts|);
  }

  /** Every shape an item fades shows `FadeValue` of its snapshot opacity
      in the frame of each sub-frame, and every other shape its snapshot. */
  lemma FrameOpacities(params0: map<ParamId, Parameter>, opac0: map<ShapeId, real>, plan: Plan, n: int,
                       item: int, num0: int, rejected: set<Write>, m: nat, x: ShapeId)
    requires n >= 1 && Covers(plan, params0, opac0) && x in opac0
    ensures var shown := FrameAt(params0, opac0, plan, n, item, num0, rejected, m).opacities;
      && x in shown
      && (x in plan.fades ==> shown[x] == FadeValue(opac0[x], m, n))
      && (x !in plan.fades ==> shown[x] == opac0[x])
  {
    OpacitiesAfterFrame(opac0, plan.fades, n, m + 1);
    if x in plan.fades {
      var i :| 0 <= i < |plan.fades| && plan.fades[i] == x;
      assert x in FadeShapes(plan.fades, |plan.fades|);
    }
  }

  /** Every frame shows each parameter within its original magnitude, and
      a parameter no target drives at its snapshot. */
  lemma FrameParams(params0: map<ParamId, Parameter>, opac0: map<ShapeId, real>, plan: Plan, n: int,
                    item: int, num0: int, rejected: set<Write>, m: nat, p: ParamId)
    requires n >= 1 && Covers(plan, params0, opac0) && p in params0
    ensures var shown := FrameAt(params0, opac0, plan, n, item, num0, rejected, m).params;
      && p in shown
      && Abs(shown[p].value) <= Abs(params0[p].value)
      && ((forall i :: 0 <= i < |plan.targets| ==> plan.targets[i].param != p) ==> shown[p] == params0[p])
  {
    ParamsAfterFrame(params0, plan.targets, item, rejected, m + 1);
  }

  /** The frame saved at sub-frame `m` of the item at `item`, numbered
      from `num0`. */
  function FrameAt(params0: map<ParamId, Parameter>, opac0: map<ShapeId, real>, plan: Plan, n: int,
                   item: int, num0: int, rejected: set<Write>, m: nat): Frame
    requires n >= 1 && Covers(plan, params0, opac0)
  {
    Frame(num0 + m, item, m,
          ParamsAfter(params0, plan.targets, item, rejected, m + 1),
          OpacitiesAfter(opac0, plan.fades, n, m + 1))
  }

  /** How many sub-frames a budget runs: Python's `range` of a negative
      count is empty. */
  function SubFrames(budget: int): nat {
    if budget > 0 then budget else 0
  }

  /** Writes every target once at sub-frame `j`, skipping rejected
      writes; `originals` is the snapshot taken before the loop. */
  method StepTargets(before: map<ParamId, Parameter>, params0: map<ParamId, Parameter>, ts: seq<Target>,
                     originals: seq<Parameter>, item: int, j: nat, rejected: set<Write>)
    returns (params: map<ParamId, Parameter>)
    requires forall i :: 0 <= i < |ts| ==> ts[i].param in params0
    requires |originals| == |ts| && forall i :: 0 <= i < |ts| ==> originals[i] == params0[ts[i].param]
    ensures params == ApplyTargets(before, params0, ts, item, j, rejected, |ts|)
  {
    params := before;
    var k := 0;
    while k < |ts|
      invariant 0 <= k <= |ts|
      invariant params == ApplyTargets(before, params0, ts, item, j, rejected, k)
    {
      if Write(item, j, k) !in rejected {
        var value := Raw(ts[k], j);
        if Abs(value) > Abs(originals[k].value) {
          value := originals[k].value;
        }
        params := params[ts[k].param := Parameter(value, Literal(value))];
      }
      k := k + 1;
    }
  }

  /** Writes every fade entry once at sub-frame `j`; `alphas` is the
      snapshot taken before the loop. */
  method StepFades(shown: map<ShapeId, real>, opac0: map<ShapeId, real>, fs: seq<ShapeId>,
                   alphas: seq<real>, j: nat, n: int)
    returns (opacities: map<ShapeId, real>)
    requires n >= 1
    requires forall i :: 0 <= i < |fs| ==> fs[i] in opac0
    requires |alphas| == |fs| && forall i :: 0 <= i < |fs| ==> alphas[i] == opac0[fs[i]]
    ensures opacities == ApplyFades(shown, opac0, fs, j, n, |fs|)
  {
    opacities := shown;
    var k := 0;
    while k < |fs|
      invariant 0 <= k <= |fs|
      invariant opacities == ApplyFades(shown, opac0, fs, j, n, k)
    {
      var value := FadeRaw(alphas[k], j, n);
      if Abs(value) > Abs(alphas[k]) {
        value := alphas[k];
      }
      opacities := opacities[fs[k] := value];
      k := k + 1;
    }
  }

  /** Writes back the snapshot, value then expression for every target
      and opacity for every fade entry. */
  method Restore(last: map<ParamId, Parameter>, faded: map<ShapeId, real>,
                 params0: map<ParamId, Parameter>, opac0: map<ShapeId, real>, plan: Plan,
                 originals: seq<Parameter>, alphas: seq<real>)
    returns (params: map<ParamId, Parameter>, opacities: map<ShapeId, real>)
    requires Covers(plan, params0, opac0)
    requires |originals| == |plan.targets|
    requires forall i :: 0 <= i < |plan.targets| ==> originals[i] == params0[plan.targets[i].param]
    requires |alphas| == |plan.fades| && forall i :: 0 <= i < |plan.fades| ==> alphas[i] == opac0[plan.fades[i]]
    ensures params == RestoreTargets(last, params0, plan.targets, |plan.targets|)
    ensures opacities == RestoreFades(faded, opac0, plan.fades, |plan.fades|)
  {
    var ts, fs := plan.targets, plan.fades;
    params := last;
    var k := 0;
    while k < |ts|
      invariant 0 <= k <= |ts|
      invariant params == RestoreTargets(last, params0, ts, k)
    {
      params := params[ts[k].param := originals[k]];
      k := k + 1;
    }
    opacities := faded;
    k := 0;
    while k < |fs|
      invariant 0 <= k <= |fs|
      invariant opacities == RestoreFades(faded, opac0, fs, k)
    {
      opacities := opacities[fs[k] := alphas[k]];
      k := k + 1;
    }
  }

  /** Runs the sub-frame loop of one animated item from frame number
      `num0` with `budget` sub-frames, `n` of which make up the ramp. Every
      frame shows the state the functional model predicts, frames are
      numbered consecutively, and the host parameters and opacities come
      back exactly as they were, whatever writes were rejected. */
  method RunOperation(params0: map<ParamId, Parameter>, opac0: map<ShapeId, real>, plan: Plan, n: int,
                      budget: int, item: int, num0: int, rejected: set<Write>)
    returns (params: map<ParamId, Parameter>, opacities: map<ShapeId, real>, frames: seq<Frame>)
    requires n >= 1 && Covers(plan, params0, opac0)
    ensures params == params0 && opacities == opac0
    ensures |frames| == SubFrames(budget)
    ensures forall m :: 0 <= m < |frames| ==> frames[m] == FrameAt(params0, opac0, plan, n, item, num0, rejected, m)
  {
    var ts, fs := plan.targets, plan.fades;
    params, opacities := params0, opac0;
    // Snapshot of values, expressions and opacities.
    var originals := seq(|ts|, k requires 0 <= k < |ts| => params0[ts[k].param]);
    var alphas := seq(|fs|, k requires 0 <= k < |fs| => opac0[fs[k]]);
    var count := SubFrames(budget);
    var num := num0;
    frames := [];
    var j := 0;
    while j < count
      invariant 0 <= j <= count && num == num0 + j
      invariant params == ParamsAfter(params0, ts, item, rejected, j)
      invariant opacities == OpacitiesAfter(opac0, fs, n, j)
      invariant |frames| == j
      invariant forall m :: 0 <= m < j ==> frames[m] == FrameAt(params0, opac0, plan, n, item, num0, rejected, m)
    {
      params := StepTargets(params, params0, ts, originals, item, j, rejected);
      opacities := StepFades(opacities, opac0, fs, alphas, j, n);
      frames := frames + [Frame(num, item, j, params, opacities)];
      num := num + 1;
      j := j + 1;
    }
    var last, faded := params, opacities;
    params, opacities := Restore(last, faded, params0, opac0, plan, originals, alphas);
    ParamsAfterFrame(params0, ts, item, rejected, count);
    OpacitiesAfterFrame(opac0, fs, n, count);
    RestoredParams(last, params0, ts);
    RestoredOpacities(faded, opac0, fs);
  }

  /** Restoring every target over a state that differs from the snapshot
      only in targeted parameters gives the snapshot back. */
  lemma RestoredParams(cur: map<ParamId, Parameter>, params0: map<ParamId, Parameter>, ts: seq<Target>)
    requires forall i :: 0 <= i < |ts| ==> ts[i].param in params0
    requires cur.Keys == params0.Keys
    requires forall p :: p in params0 && p !in TargetParams(ts, |ts|) ==> cur[p] == params0[p]
    ensures var r := RestoreTargets(cur, params0, ts, |ts|);
      r.Keys == params0.Keys && forall p :: p in params0 ==> r[p] == params0[p]
  {
    RestoreTargetsFrame(cur, params0, ts, |ts|);
  }

  /** Restoring every fade entry over a state that differs from the
      snapshot only in faded shapes gives the snapshot back. */
  lemma RestoredOpacities(cur: map<ShapeId, real>, opac0: map<ShapeId, real>, fs: seq<ShapeId>)
    requires forall i :: 0 <= i < |fs| ==> fs[i] in opac0
    requires cur.Keys == opac0.Keys
    requires forall x :: x in opac0 && x !in FadeShapes(fs, |fs|) ==> cur[x] == opac0[x]
    ensures RestoreFades(cur, opac0, fs, |fs|) == opac0
  {
    var r := RestoreFades(cur, opac0, fs, |fs|);
    RestoreFadesFrame(cur, opac0, fs, |fs|);
    assert r.Keys == opac0.Keys;
    forall x | x in r
      ensures r[x] == opac0[x]
    {
    }
  }
}

=== FILE: extents.dfy ===
/** Extent classification: which extent definitions carry a single scalar
    driver that the engine can interpolate. */
module Extents {
  import opened Timeline

  /** True exactly for distance, symmetric and angle extents, the three
      kinds that carry one numeric driver; every other kind is left alone. */
  predicate IsNumericExtent(e: ExtentDefinition)
    ensures IsNumericExtent(e) <==> e.DistanceExtent? || e.SymmetricExtent? || e.AngleExtent?
    ensures IsNumericExtent(e) <==> ExtentParams(e) != {}
  {
    match e
    case DistanceExtent(_) => true
    case SymmetricExtent(_) => true
    case AngleExtent(_) => true
    case ToEntityExtent => false
    case ThroughAllExtent => false
    case OtherExtent(_) => false
  }

  /** The parameter that drives a numeric extent. */
  function DrivingParam(e: ExtentDefinition): (p: ParamId)
    requires IsNumericExtent(e)
    ensures ExtentParams(e) == {p}
  {
    match e
    case DistanceExtent(d) => d
    case SymmetricExtent(d) => d
    case AngleExtent(a) => a
  }
}

=== FILE: framenames.dfy ===
/** The image file name of a frame: `frame_` followed by the frame number
    in decimal, zero-padded to at least five digits, as the format
    `'frame_{:05d}'` writes it (Design-History-Animation.py, lines
    484-487). */
module FrameNames {

  predicate IsDigit(c: char) {
    '0' <= c <= '9'
  }

  predicate AllDigits(s: string) {
    forall i :: 0 <= i < |s| ==> IsDigit(s[i])
  }

  function DigitChar(d: nat): (c: char)
    requires d < 10
    ensures IsDigit(c)
  {
    ('0' as int + d) as char
  }

  function DigitValue(c: char): (d: nat)
    requires IsDigit(c)
    ensures d < 10 && DigitChar(d) == c
  {
    c as int - '0' as int
  }

  /** The decimal digits of `n`, without leading zeros. */
  function Decimal(n: nat): (s: string)
    ensures 1 <= |s| && AllDigits(s)
    ensures n >= 10 ==> s[0] != '0'
  {
    if n < 10 then [DigitChar(n)] else Decimal(n / 10) + [DigitChar(n % 10)]
  }

  /** `s` left-padded with zeros to `width` characters; longer strings are
      kept whole. */
  function PadZeros(s: string, width: nat): (r: string)
    ensures |r| == if |s| >= width then |s| else width
    ensures r[|r| - |s|..] == s
    ensures forall i :: 0 <= i < |r| - |s| ==> r[i] == '0'
  {
    if |s| >= width then s else seq(width - |s|, _ => '0') + s
  }

  function FrameName(num: nat): string {
    "frame_" + PadZeros(Decimal(num), 5)
  }

  /** The number a string of digits denotes; leading zeros count for
      nothing. */
  function ParseDecimal(s: string): nat
    requires AllDigits(s)
  {
    if |s| == 0 then 0 else ParseDecimal(s[..|s| - 1]) * 10 + DigitValue(s[|s| - 1])
  }

  /** Reading back the digits gives the number. */
  lemma {:induction false} ParseDecimalOfDecimal(n: nat)
    ensures ParseDecimal(Decimal(n)) == n
  {
    if n >= 10 {
      var s := Decimal(n);
      assert s[..|s| - 1] == Decimal(n / 10);
      ParseDecimalOfDecimal(n / 10);
    }
  }

  /** Leading zeros do not change the number. */
  lemma {:induction false} ParseDecimalLeadingZeros(z: string, s: string)
    requires AllDigits(s) && forall i :: 0 <= i < |z| ==> z[i] == '0'
    ensures AllDigits(z + s) && ParseDecimal(z + s) == ParseDecimal(s)
    decreases |s|, |z|
  {
    if |s| > 0 {
      assert (z + s)[..|z + s| - 1] == z + s[..|s| - 1];
      ParseDecimalLeadingZeros(z, s[..|s| - 1]);
    } else if |z| > 0 {
      assert z + s == z;
      assert z[..|z| - 1] + [] == z[..|z| - 1];
      ParseDecimalLeadingZeros(z[..|z| - 1], []);
    }
  }

  /** The number of a frame can be read back from its file name. */
  lemma FrameNameRoundTrip(num: nat)
    ensures var name := FrameName(num);
      |name| >= 11 && name[..6] == "frame_" && AllDigits(name[6..]) && ParseDecimal(name[6..]) == num
  {
    var digits := Decimal(num);
    var padded := PadZeros(digits, 5);
    assert FrameName(num)[6..] == padded;
    ParseDecimalOfDecimal(num);
    ParseDecimalLeadingZeros(padded[..|padded| - |digits|], digits);
    assert padded[..|padded| - |digits|] + digits == padded;
  }

  /** Distinct frame numbers give distinct file names, so no frame
      overwrites another. */
  lemma FrameNamesDistinct(a: nat, b: nat)
    requires a != b
    ensures FrameName(a) != FrameName(b)
  {
    FrameNameRoundTrip(a);
    FrameNameRoundTrip(b);
  }

  /** Below 100000 every name is exactly eleven characters long. */
  lemma FrameNameWidth(num: nat)
    requires num < 100000
    ensures |FrameName(num)| == 11
  {
    DecimalLength(num, 5);
  }

  /** A number below `10^k` has at most `k` digits. */
  lemma {:induction false} DecimalLength(n: nat, k: nat)
    requires n < Power10(k)
    ensures |Decimal(n)| <= if k == 0 then 1 else k
    decreases k
  {
    if n >= 10 {
      assert k >= 2;
      DecimalLength(n / 10, k - 1);
    }
  }

  function Power10(k: nat): (p: nat)
    ensures p >= 1
  {
    if k == 0 then 1 else 10 * Power10(k - 1)
  }
}

=== FILE: interpolation.dfy ===
/** The value written at each sub-frame: a linear step clamped so that it
    never overshoots the original value in magnitude
    (Design-History-Animation.py, lines 449-468). */
module Interpolation {
  import opened Base
  import opened Timeline
  import opened Dispatch

  /** Replaces a value whose magnitude exceeds the original's by the
      original itself. */
  function Clamp(value: real, original: real): (r: real)
    ensures Abs(r) <= Abs(original)
    ensures r == value || r == original
    ensures Abs(value) <= Abs(original) ==> r == value
  {
    if Abs(value) > Abs(original) then original else value
  }

  /** The unclamped value of a target at sub-frame `j`. */
  function Raw(t: Target, j: nat): real {
    t.stepSize * (j + 1) as real + t.stepOffset
  }

  /** The value written to a target's parameter at sub-frame `j`, given the
      parameter's value before the loop. */
  function StepValue(t: Target, original: real, j: nat): (v: real)
    ensures Abs(v) <= Abs(original)
    ensures v == Raw(t, j) || v == original
  {
    Clamp(Raw(t, j), original)
  }

  /** The unclamped opacity at sub-frame `j` of a fade over `n`
      sub-frames. */
  function FadeRaw(alpha: real, j: nat, n: int): real
    requires n >= 1
  {
    alpha * (j + 1) as real / n as real
  }

  /** The opacity written at sub-frame `j` to a shape whose opacity was
      `alpha` before the loop: a linear fade-in over `n` sub-frames. */
  function FadeValue(alpha: real, j: nat, n: int): (v: real)
    requires n >= 1
    ensures Abs(v) <= Abs(alpha)
  {
    Clamp(FadeRaw(alpha, j, n), alpha)
  }

  /** `k` of the `n` equal parts of `v`. */
  function Portion(v: real, k: nat, n: int): real
    requires n >= 1
  {
    v * (k as real / n as real)
  }

  /** A portion against the whole: within it in magnitude up to `k == n`,
      exactly the whole at `k == n`, beyond it in magnitude past `n` unless
      `v` is zero. */
  lemma ScaledMagnitude(v: real, k: nat, n: int)
    requires n >= 1
    ensures k <= n ==> Abs(Portion(v, k, n)) <= Abs(v)
    ensures k == n ==> Portion(v, k, n) == v
    ensures k > n && v != 0.0 ==> Abs(Portion(v, k, n)) > Abs(v)
  {
    var r := k as real / n as real;
    DivOrder(k as real, n as real);
    DivAtMostOne(k as real, n as real);
    if k <= n {
      ScaleLe(v, r, 1.0);
    }
    if k > n && v != 0.0 {
      ScaleLess(v, 1.0, r);
    }
  }

  /** A portion of a non-negative value is non-negative. */
  lemma PortionNonNegative(v: real, k: nat, n: int)
    requires n >= 1 && v >= 0.0
    ensures Portion(v, k, n) >= 0.0
  {
    var r := k as real / n as real;
    DivOrder(k as real, n as real);
    ProductLe(0.0, r, v, 0.0, v * r);
  }

  /** The unclamped even step at sub-frame `j` is `j + 1` of `n` parts. */
  lemma EvenRaw(p: ParamId, params: map<ParamId, Parameter>, n: int, j: nat)
    requires p in params && n >= 1
    ensures Raw(EvenTarget(p, params, n), j) == Portion(params[p].value, j + 1, n)
  {
    DivScale(params[p].value, (j + 1) as real, n as real);
  }

  /** The unclamped fade at sub-frame `j` is `j + 1` of `n` parts. */
  lemma FadeRawPortion(alpha: real, n: int, j: nat)
    requires n >= 1
    ensures FadeRaw(alpha, j, n) == Portion(alpha, j + 1, n)
  {
    DivScale(alpha, (j + 1) as real, n as real);
  }

  /** An evenly stepped parameter of value `V` passes through
      `V * (j + 1) / n` at sub-frame `j < n`, reaches `V` exactly at the
      last regular sub-frame `n - 1`, and stays at `V` through every
      trailing sub-frame after it. */
  lemma EvenRamp(p: ParamId, params: map<ParamId, Parameter>, n: int, j: nat)
    requires p in params && n >= 1
    ensures var v := params[p].value;
      && (j < n ==> StepValue(EvenTarget(p, params, n), v, j) == Portion(v, j + 1, n))
      && (j >= n - 1 ==> StepValue(EvenTarget(p, params, n), v, j) == v)
  {
    EvenRaw(p, params, n, j);
    ScaledMagnitude(params[p].value, j + 1, n);
  }

  /** The fade-in passes through `alpha * (j + 1) / n` at sub-frame
      `j < n` and equals `alpha` exactly from sub-frame `n - 1` on,
      trailing sub-frames included. */
  lemma FadeRamp(alpha: real, n: int, j: nat)
    requires n >= 1
    ensures j < n ==> FadeValue(alpha, j, n) == Portion(alpha, j + 1, n)
    ensures j >= n - 1 ==> FadeValue(alpha, j, n) == alpha
  {
    FadeRawPortion(alpha, n, j);
    ScaledMagnitude(alpha, j + 1, n);
  }

  /** A non-negative opacity fades in from zero and never passes its
      original value. */
  lemma FadeWithinOpacity(alpha: real, n: int, j: nat)
    requires n >= 1 && alpha >= 0.0
    ensures 0.0 <= FadeValue(alpha, j, n) <= alpha
  {
    FadeRawPortion(alpha, n, j);
    PortionNonNegative(alpha, j + 1, n);
  }

  /** For a positive value the even ramp strictly increases over the
      regular sub-frames. */
  lemma EvenRampIncreasing(p: ParamId, params: map<ParamId, Parameter>, n: int, j: nat, j': nat)
    requires p in params && n >= 1 && params[p].value > 0.0
    requires j < j' < n
    ensures var v := params[p].value;
      StepValue(EvenTarget(p, params, n), v, j) < StepValue(EvenTarget(p, params, n), v, j')
  {
    var v := params[p].value;
    EvenRamp(p, params, n, j);
    EvenRamp(p, params, n, j');
    var a := (j + 1) as real / n as real;
    var b := (j' + 1) as real / n as real;
    DivLess((j + 1) as real, (j' + 1) as real, n as real);
    ProductLess(a, b, v, Portion(v, j + 1, n), Portion(v, j' + 1, n));
  }

  /** While the count `m` is within `Q`, the distance `sp * (m - 1)` is
      within `sp * (Q - 1)` and is written unchanged. */
  lemma SpacingBelow(Q: real, sp: real, m: real)
    requires Q > 1.0 && 0.0 <= m <= Q && (m >= 1.0 || Q >= 2.0)
    ensures Clamp(sp * (m - 1.0), sp * (Q - 1.0)) == sp * (m - 1.0)
  {
    ScaleLe(sp, m - 1.0, Q - 1.0);
  }

  /** Once the count `m` passes `Q`, the distance is clamped to
      `sp * (Q - 1)`. */
  lemma SpacingAbove(Q: real, sp: real, m: real)
    requires Q > 1.0 && m > Q
    ensures Clamp(sp * (m - 1.0), sp * (Q - 1.0)) == sp * (Q - 1.0)
  {
    if sp != 0.0 {
      ScaleLess(sp, Q - 1.0, m - 1.0);
    }
  }

  /** The clamp arithmetic behind a pattern's constant spacing: clamping
      `sp * (m - 1)` against `sp * (Q - 1)` gives `sp` times the clamped
      count, less one. */
  lemma SpacingClamp(Q: real, sp: real, m: real)
    requires Q > 1.0 && m >= 0.0 && (m >= 1.0 || Q >= 2.0)
    ensures Clamp(sp * (m - 1.0), sp * (Q - 1.0)) == sp * (Clamp(m, Q) - 1.0)
  {
    if m <= Q {
      SpacingBelow(Q, sp, m);
      assert Clamp(m, Q) == m;
    } else {
      SpacingAbove(Q, sp, m);
      assert Clamp(m, Q) == Q;
    }
  }

  /** The unclamped distance of a pattern direction at count `s * k`. */
  lemma DistanceRaw(sp: real, s: real, k: real)
    ensures sp * s * k + -sp == sp * (s * k - 1.0)
  {
  }

  /** Where the last of `count` instances spaced `spacing` apart sits,
      measured from the first. */
  function LastInstanceAt(spacing: real, count: real): real {
    spacing * (count - 1.0)
  }

  /** `CountAndDistance` for a pair of targets of that shape. */
  lemma SpacingOfPair(ts: seq<Target>, q: ParamId, d: ParamId, Q: real, D: real, sp: real, sr: real, j: nat)
    requires |ts| == 2 && ts[0] == Target(q, sr, 0.0) && ts[1] == Target(d, sp * sr, -sp)
    requires Q > 1.0 && sr >= 0.0 && (sr >= 1.0 || Q >= 2.0)
    requires D == sp * (Q - 1.0)
    ensures StepValue(ts[1], D, j) == LastInstanceAt(sp, StepValue(ts[0], Q, j))
  {
    CountAndDistance(q, d, Q, D, sp, sr, j);
  }

  /** The clamp step of `CountAndDistance`, on the unclamped count `rq`
      and the unclamped distance `rd == sp * (rq - 1)`. */
  lemma SpacingOnRaw(Q: real, D: real, sp: real, rq: real, rd: real)
    requires Q > 1.0 && rq >= 0.0 && (rq >= 1.0 || Q >= 2.0)
    requires D == sp * (Q - 1.0) && rd == sp * (rq - 1.0)
    ensures Clamp(rd, D) == sp * (Clamp(rq, Q) - 1.0)
  {
    SpacingClamp(Q, sp, rq);
  }

  /** The two targets a pattern direction with a quantity other than one
      and a distance extracts: the count stepping by the quantity step from
      zero, and the distance stepping by spacing times that step from minus
      one spacing. */
  lemma PatternDirectionShape(dir: Direction, q: ParamId, d: ParamId, params: map<ParamId, Parameter>, n: int,
                              sr: real, sp: real)
    requires q in params && d in params && n >= 1 && params[q].value != 1.0
    requires sr == QuantityStep(dir, params[q].value, n) as real
    requires sp == params[d].value / (params[q].value - 1.0)
    ensures var ts := PatternDirection(dir, Some(q), Some(d), params, n);
      |ts| == 2 && ts[0] == Target(q, sr, 0.0) && ts[1] == Target(d, sp * sr, -sp)
  {
  }

  /** A count target stepping by `sr` and a distance target stepping by
      `sp * sr` from offset `-sp`, against originals `Q` and
      `D == sp * (Q - 1)`: at every sub-frame the distance written is `sp`
      times the count written, less one, clamps included. */
  lemma CountAndDistance(q: ParamId, d: ParamId, Q: real, D: real, sp: real, sr: real, j: nat)
    requires Q > 1.0 && sr >= 0.0 && (sr >= 1.0 || Q >= 2.0)
    requires D == sp * (Q - 1.0)
    ensures StepValue(Target(d, sp * sr, -sp), D, j)
        == sp * (StepValue(Target(q, sr, 0.0), Q, j) - 1.0)
  {
    var tq := Target(q, sr, 0.0);
    var td := Target(d, sp * sr, -sp);
    var rq := Raw(tq, j);
    var rd := Raw(td, j);
    CountRaw(Q, sr, (j + 1) as real, rq);
    DistanceRaw(sp, sr, (j + 1) as real);
    assert StepValue(tq, Q, j) == Clamp(rq, Q);
    assert StepValue(td, D, j) == Clamp(rd, D);
    SpacingOnRaw(Q, D, sp, rq, rd);
  }

  /** A count stepping by `sr` from zero stays non-negative, and reaches
      at least one from the first sub-frame when `sr` does. */
  lemma CountRaw(Q: real, sr: real, k: real, rq: real)
    requires sr >= 0.0 && (sr >= 1.0 || Q >= 2.0) && k >= 1.0 && rq == sr * k + 0.0
    ensures rq >= 0.0 && (rq >= 1.0 || Q >= 2.0)
  {
    MulLe(0.0, sr, k);
    if sr >= 1.0 {
      MulLe(1.0, sr, k);
    }
  }

  /** A pattern direction with quantity `Q > 1` (and `Q >= 2` in direction
      two, where the step may be zero) and distance `D` extracts a quantity
      target and a distance target, and at every sub-frame the distance
      written puts the last instance where `D / (Q - 1)` spacing puts it for
      the quantity written: the instances keep their spacing throughout. */
  lemma PatternKeepsSpacing(dir: Direction, q: ParamId, d: ParamId, params: map<ParamId, Parameter>,
                            n: int, j: nat)
    requires q in params && d in params && n >= 1
    requires params[q].value > 1.0 && (dir.DirectionOne? || params[q].value >= 2.0)
    ensures |PatternDirection(dir, Some(q), Some(d), params, n)| == 2
    ensures PatternDirection(dir, Some(q), Some(d), params, n)[0].param == q
    ensures PatternDirection(dir, Some(q), Some(d), params, n)[1].param == d
    ensures StepValue(PatternDirection(dir, Some(q), Some(d), params, n)[1], params[d].value, j)
         == LastInstanceAt(params[d].value / (params[q].value - 1.0),
                           StepValue(PatternDirection(dir, Some(q), Some(d), params, n)[0], params[q].value, j))
  {
    var Q, D := params[q].value, params[d].value;
    var sr := QuantityStep(dir, Q, n) as real;
    var sp := D / (Q - 1.0);
    var ts := PatternDirection(dir, Some(q), Some(d), params, n);
    PatternDirectionShape(dir, q, d, params, n, sr, sp);
    DivOrder(D, Q - 1.0);
    SpacingOfPair(ts, q, d, Q, D, sp, sr, j);
  }

  /** Direction two has no floor on its quantity step: a quantity `Q`
      below the sub-frame count gets step zero, so the quantity is written
      as zero on every sub-frame, whereas direction one writes
      `min(j + 1, Q)` and so never drops below one instance. */
  lemma PatternDirectionTwoStalls(q: ParamId, params: map<ParamId, Parameter>, n: int, j: nat)
    requires q in params && n >= 1
    requires 1.0 < params[q].value < n as real
    ensures var Q := params[q].value;
      var one := PatternDirection(DirectionOne, Some(q), None, params, n);
      var two := PatternDirection(DirectionTwo, Some(q), None, params, n);
      && |one| == 1 && |two| == 1
      && StepValue(two[0], Q, j) == 0.0
      && StepValue(one[0], Q, j) == (if (j + 1) as real <= Q then (j + 1) as real else Q)
      && StepValue(one[0], Q, j) >= 1.0
  {
    TruncScaled(params[q].value, n);
  }
}

=== FILE: objwriter.dfy ===
/** The index arithmetic of the Wavefront OBJ export: header totals and one
    face line per triangle whose vertex numbers are one-based and shifted
    past the vertices of every earlier mesh (Design-History-Animation.py,
    `saveObjFile`, lines 527-556). Coordinates and normals are left out. */
module ObjWriter {
  import opened Base

  /** A triangulated body: its vertex count, its triangle count and the
      flat buffer of mesh-local vertex indices, three per triangle. */
  datatype Mesh = Mesh(nodeCount: nat, triangleCount: nat, nodeIndices: seq<int>)

  /** One `f` line; each number is written both as vertex and as normal. */
  datatype Face = Face(i0: int, i1: int, i2: int)

  /** What the file holds apart from coordinates and normals. */
  datatype ObjFile = ObjFile(vertexCount: nat, triangleCount: nat, faces: seq<Face>)

  /** The buffer holds three indices for every triangle. */
  predicate WellFormed(mesh: Mesh) {
    |mesh.nodeIndices| >= 3 * mesh.triangleCount
  }

  /** Every local index names one of the mesh's own vertices. */
  predicate IndicesInRange(mesh: Mesh) {
    forall k :: 0 <= k < |mesh.nodeIndices| ==> 0 <= mesh.nodeIndices[k] < mesh.nodeCount
  }

  /** The vertices of the first `m` meshes: the offset of mesh `m`. */
  function NodeOffset(meshes: seq<Mesh>, m: nat): nat
    requires m <= |meshes|
  {
    if m == 0 then 0 else NodeOffset(meshes, m - 1) + meshes[m - 1].nodeCount
  }

  /** The triangles of the first `m` meshes. */
  function TriangleTotal(meshes: seq<Mesh>, m: nat): nat
    requires m <= |meshes|
  {
    if m == 0 then 0 else TriangleTotal(meshes, m - 1) + meshes[m - 1].triangleCount
  }

  /** The face of triangle `t`: its three local indices, one-based, shifted
      by `offset`. */
  function TriangleFace(mesh: Mesh, t: nat, offset: int): Face
    requires WellFormed(mesh) && t < mesh.triangleCount
  {
    var idx := mesh.nodeIndices;
    Face(idx[3 * t] + 1 + offset, idx[3 * t + 1] + 1 + offset, idx[3 * t + 2] + 1 + offset)
  }

  /** The faces of one mesh, in triangle order. */
  function MeshFaces(mesh: Mesh, offset: int): (fs: seq<Face>)
    requires WellFormed(mesh)
    ensures |fs| == mesh.triangleCount
  {
    seq(mesh.triangleCount, t requires 0 <= t < mesh.triangleCount => TriangleFace(mesh, t, offset))
  }

  /** The faces of the first `m` meshes. */
  function FacesUpTo(meshes: seq<Mesh>, m: nat): seq<Face>
    requires m <= |meshes| && forall k :: 0 <= k < |meshes| ==> WellFormed(meshes[k])
  {
    if m == 0 then [] else FacesUpTo(meshes, m - 1) + MeshFaces(meshes[m - 1], NodeOffset(meshes, m - 1))
  }

  /** What a successful export holds: the vertex and triangle totals of
      the header and every mesh's faces in mesh order. */
  function Export(meshes: seq<Mesh>): ObjFile
    requires forall k :: 0 <= k < |meshes| ==> WellFormed(meshes[k])
  {
    ObjFile(NodeOffset(meshes, |meshes|), TriangleTotal(meshes, |meshes|), FacesUpTo(meshes, |meshes|))
  }

  /** Writes the export. The write stops with a failure, as the host's
      `except` does, at the first mesh whose buffer is too short for its
      triangles; otherwise the header totals are the sums of the
      per-mesh counts and the faces are every mesh's faces in order. */
  method WriteObj(meshes: seq<Mesh>) returns (r: Option<ObjFile>)
    ensures r.None? <==> exists k :: 0 <= k < |meshes| && !WellFormed(meshes[k])
    ensures r.Some? ==> r.value == Export(meshes)
  {
    var triangles, vertices := 0, 0;
    var m := 0;
    while m < |meshes|
      invariant 0 <= m <= |meshes|
      invariant vertices == NodeOffset(meshes, m) && triangles == TriangleTotal(meshes, m)
    {
      triangles := triangles + meshes[m].triangleCount;
      vertices := vertices + meshes[m].nodeCount;
      m := m + 1;
    }
    var faces: seq<Face> := [];
    var offset := 0;
    m := 0;
    while m < |meshes|
      invariant 0 <= m <= |meshes| && offset == NodeOffset(meshes, m)
      invariant forall k :: 0 <= k < m ==> WellFormed(meshes[k])
      invariant faces == FacesUpTo(meshes[..m], m)
    {
      var meshFaces := WriteFaces(meshes[m], offset);
      if meshFaces.None? {
        return None;
      }
      PrefixFaces(meshes, m);
      faces := faces + meshFaces.value;
      offset := offset + meshes[m].nodeCount;
      m := m + 1;
    }
    assert meshes[..|meshes|] == meshes;
    return Some(ObjFile(vertices, triangles, faces));
  }

  /** Writes the face lines of one mesh whose vertices start after
      `offset` others. Reading past the index buffer raises inside the
      host, so the write fails exactly when the buffer is too short. */
  method WriteFaces(mesh: Mesh, offset: int) returns (r: Option<seq<Face>>)
    ensures r.None? <==> !WellFormed(mesh)
    ensures r.Some? ==> WellFormed(mesh) && r.value == MeshFaces(mesh, offset)
  {
    var t := 0;
    var meshFaces: seq<Face> := [];
    while t < mesh.triangleCount
      invariant 0 <= t <= mesh.triangleCount
      invariant |meshFaces| == t
      invariant t > 0 ==> 3 * (t - 1) + 2 < |mesh.nodeIndices|
      invariant forall u :: 0 <= u < t ==>
        (3 * u + 2 < |mesh.nodeIndices| && meshFaces[u] == TriangleFace(mesh.(triangleCount := t), u, offset))
    {
      if 3 * t + 2 >= |mesh.nodeIndices| {
        return None;
      }
      var i0 := mesh.nodeIndices[t * 3] + 1 + offset;
      var i1 := mesh.nodeIndices[t * 3 + 1] + 1 + offset;
      var i2 := mesh.nodeIndices[t * 3 + 2] + 1 + offset;
      meshFaces := meshFaces + [Face(i0, i1, i2)];
      t := t + 1;
    }
    assert WellFormed(mesh);
    assert meshFaces == MeshFaces(mesh, offset) by {
      forall u | 0 <= u < t
        ensures meshFaces[u] == TriangleFace(mesh, u, offset)
      {
      }
    }
    return Some(meshFaces);
  }

  /** One step of the face list over a growing prefix. */
  lemma PrefixFaces(meshes: seq<Mesh>, m: nat)
    requires m < |meshes| && forall k :: 0 <= k <= m ==> WellFormed(meshes[k])
    ensures FacesUpTo(meshes[..m + 1], m + 1)
         == FacesUpTo(meshes[..m], m) + MeshFaces(meshes[m], NodeOffset(meshes, m))
  {
    PrefixSame(meshes, m + 1, m);
    PrefixOffset(meshes, m + 1, m);
  }

  lemma {:induction false} PrefixSame(meshes: seq<Mesh>, p: nat, m: nat)
    requires m <= p <= |meshes| && forall k :: 0 <= k < p ==> WellFormed(meshes[k])
    ensures FacesUpTo(meshes[..p], m) == FacesUpTo(meshes[..m], m)
  {
    if m > 0 {
      PrefixSame(meshes, p, m - 1);
      PrefixSame(meshes, m, m - 1);
      PrefixOffset(meshes, p, m - 1);
      PrefixOffset(meshes, m, m - 1);
    }
  }

  lemma {:induction false} PrefixOffset(meshes: seq<Mesh>, p: nat, m: nat)
    requires m <= p <= |meshes|
    ensures NodeOffset(meshes[..p], m) == NodeOffset(meshes, m)
  {
    if m > 0 {
      PrefixOffset(meshes, p, m - 1);
    }
  }

  /** Exactly one face line per triangle. */
  lemma {:induction false} OneFacePerTriangle(meshes: seq<Mesh>, m: nat)
    requires m <= |meshes| && forall k :: 0 <= k < |meshes| ==> WellFormed(meshes[k])
    ensures |FacesUpTo(meshes, m)| == TriangleTotal(meshes, m)
  {
    if m > 0 {
      OneFacePerTriangle(meshes, m - 1);
    }
  }

  /** The face of triangle `t` of mesh `k` sits after the triangles of the
      meshes before `k`, and its numbers are the mesh-local indices plus
      one plus the vertex count of the meshes before `k`. */
  lemma {:induction false} FaceOfTriangle(meshes: seq<Mesh>, m: nat, k: nat, t: nat)
    requires m <= |meshes| && forall i :: 0 <= i < |meshes| ==> WellFormed(meshes[i])
    requires k < m && t < meshes[k].triangleCount
    ensures TriangleTotal(meshes, k) + t < |FacesUpTo(meshes, m)|
    ensures var idx := meshes[k].nodeIndices;
      var off := NodeOffset(meshes, k);
      FacesUpTo(meshes, m)[TriangleTotal(meshes, k) + t]
        == Face(idx[3 * t] + 1 + off, idx[3 * t + 1] + 1 + off, idx[3 * t + 2] + 1 + off)
  {
    OneFacePerTriangle(meshes, m - 1);
    if k < m - 1 {
      FaceOfTriangle(meshes, m - 1, k, t);
      TrianglesGrow(meshes, k + 1, m - 1);
    }
  }

  /** The running triangle total never decreases. */
  lemma {:induction false} TrianglesGrow(meshes: seq<Mesh>, a: nat, b: nat)
    requires a <= b <= |meshes|
    ensures TriangleTotal(meshes, a) <= TriangleTotal(meshes, b)
    decreases b - a
  {
    if a < b {
      TrianglesGrow(meshes, a, b - 1);
    }
  }

  /** The running vertex offset never decreases. */
  lemma {:induction false} OffsetsGrow(meshes: seq<Mesh>, a: nat, b: nat)
    requires a <= b <= |meshes|
    ensures NodeOffset(meshes, a) <= NodeOffset(meshes, b)
    decreases b - a
  {
    if a < b {
      OffsetsGrow(meshes, a, b - 1);
    }
  }

  /** When every local index names a vertex of its own mesh, every face
      number lies between 1 and the vertex total of the header. */
  lemma {:induction false} FaceNumbersInRange(meshes: seq<Mesh>, m: nat)
    requires m <= |meshes| && forall k :: 0 <= k < |meshes| ==> WellFormed(meshes[k]) && IndicesInRange(meshes[k])
    ensures forall f :: f in FacesUpTo(meshes, m) ==>
      && 1 <= f.i0 <= NodeOffset(meshes, |meshes|)
      && 1 <= f.i1 <= NodeOffset(meshes, |meshes|)
      && 1 <= f.i2 <= NodeOffset(meshes, |meshes|)
  {
    if m > 0 {
      FaceNumbersInRange(meshes, m - 1);
      OffsetsGrow(meshes, m, |meshes|);
      var mesh := meshes[m - 1];
      var off := NodeOffset(meshes, m - 1);
      forall f | f in MeshFaces(mesh, off)
        ensures 1 <= f.i0 <= NodeOffset(meshes, |meshes|)
        ensures 1 <= f.i1 <= NodeOffset(meshes, |meshes|)
        ensures 1 <= f.i2 <= NodeOffset(meshes, |meshes|)
      {
        var t :| 0 <= t < mesh.triangleCount && MeshFaces(mesh, off)[t] == f;
        assert f == TriangleFace(mesh, t, off);
      }
    }
  }
}

=== FILE: session.dfy ===
/** One `collectFrames` run over a timeline range: the per-item dispatch,
    the marker, the diagnostic log and the global frame counter
    (Design-History-Animation.py, lines 231-233 and 250-504). */
module Session {
  import opened Timeline
  import opened Dispatch
  import opened Driver

  /** The run parameters `collectFrames` reads. `start` and `end` are the
      one-based range the dialog shows; image size, paths and the mesh
      export flag are left out. */
  datatype Config = Config(start: int, end: int, framesPerOperation: int, rotate: bool,
                           framesPerRotation: int, finalFrames: int)

  /** The `finalFrames` property setter: a negative count is stored as
      zero, anything else as given, and nothing else changes. */
  function SetFinalFrames(cfg: Config, value: int): (c: Config)
    ensures c.finalFrames >= 0
    ensures value >= 0 ==> c.finalFrames == value
    ensures value < 0 ==> c.finalFrames == 0
    ensures c == cfg.(finalFrames := c.finalFrames)
  {
    cfg.(finalFrames := if value < 0 then 0 else value)
  }

  /** The rotation step count the run uses: zero when rotation is off. */
  function EffectiveFramesPerRotation(cfg: Config): int {
    if cfg.rotate then cfg.framesPerRotation else 0
  }

  /** The sub-frame budget of the item at zero-based index `i`: the regular
      count, plus the trailing frames for the index `end - 1` alone. */
  function FrameBudget(cfg: Config, i: int): int {
    if i < cfg.end - 1 then cfg.framesPerOperation else cfg.framesPerOperation + cfg.finalFrames
  }

  /** Whether the item at `i` runs the sub-frame loop. */
  predicate Animated(timeline: seq<TimelineItem>, i: int) {
    Classify(ItemAt(timeline, i), i).Animate?
  }

  /** The frames the item at `i` emits. */
  function FrameCount(cfg: Config, timeline: seq<TimelineItem>, i: int): nat {
    if Animated(timeline, i) then SubFrames(FrameBudget(cfg, i)) else 0
  }

  /** The frames emitted by the items at `lo .. hi - 1`. */
  function FramesBetween(cfg: Config, timeline: seq<TimelineItem>, lo: int, hi: int): nat
    decreases hi - lo
  {
    if hi <= lo then 0 else FramesBetween(cfg, timeline, lo, hi - 1) + FrameCount(cfg, timeline, hi - 1)
  }

  /** The number of animated items at `lo .. hi - 1`. */
  function AnimatedBetween(timeline: seq<TimelineItem>, lo: int, hi: int): nat
    decreases hi - lo
  {
    if hi <= lo then 0
    else AnimatedBetween(timeline, lo, hi - 1) + (if Animated(timeline, hi - 1) then 1 else 0)
  }

  /** The log lines written for the items at `lo .. hi - 1`. */
  function LogBetween(timeline: seq<TimelineItem>, lo: int, hi: int): seq<LogLine>
    decreases hi - lo
  {
    if hi <= lo then []
    else
      var d := Classify(ItemAt(timeline, hi - 1), hi - 1);
      LogBetween(timeline, lo, hi - 1) + (if d.Logged? then d.lines else [])
  }

  /** The marker after the items at `lo .. hi - 1`: one past the last item
      that was logged or animated, or `marker0` if every item was skipped. */
  function MarkerBetween(timeline: seq<TimelineItem>, lo: int, hi: int, marker0: int): int
    decreases hi - lo
  {
    if hi <= lo then marker0
    else if Classify(ItemAt(timeline, hi - 1), hi - 1).Skip? then MarkerBetween(timeline, lo, hi - 1, marker0)
    else hi
  }

  /** The result of a run: the division by the rotation step count fails
      before any frame when it is zero; otherwise the host after the run,
      the frames saved and the log written. */
  datatype Outcome =
    | RotationByZero
    | Done(host: Host, frames: seq<Frame>, log: seq<LogLine>)

  /** The frames saved so far are numbered 0, 1, 2, ... without gap and
      each was taken at an animated item of `lo .. hi - 1`. */
  predicate Numbered(frames: seq<Frame>, timeline: seq<TimelineItem>, lo: int, hi: int) {
    && (forall m :: 0 <= m < |frames| ==> frames[m].number == m)
    && (forall m :: 0 <= m < |frames| ==> lo <= frames[m].item < hi && Animated(timeline, frames[m].item))
  }

  /** The plan of an animated item, extracted from the host's values. */
  function ItemPlan(cfg: Config, timeline: seq<TimelineItem>, host: Host, i: int): (plan: Plan)
    requires cfg.framesPerOperation >= 1 && ExposesTimeline(host, timeline) && Animated(timeline, i)
    ensures Covers(plan, host.params, host.opacities)
  {
    var e := Classify(ItemAt(timeline, i), i).entity;
    assert Exposes(host, e);
    PlanFor(e, host.params, cfg.framesPerOperation)
  }

  /** Frame `f`, saved as the run's `m`-th frame, is the frame its item's
      sub-frame loop takes: the item's frames follow those of the animated
      items before it in the range, and `f` shows the state `Driver.FrameAt`
      gives for its position within them, against the host's values. */
  predicate RecordedAt(cfg: Config, timeline: seq<TimelineItem>, host: Host, rejected: set<Write>,
                       lo: int, f: Frame, m: int)
    requires cfg.framesPerOperation >= 1 && ExposesTimeline(host, timeline)
  {
    var base := FramesBetween(cfg, timeline, lo, f.item);
    && Animated(timeline, f.item)
    && base <= m < base + FrameCount(cfg, timeline, f.item)
    && f == FrameAt(host.params, host.opacities, ItemPlan(cfg, timeline, host, f.item),
                    cfg.framesPerOperation, f.item, base, rejected, m - base)
  }

  /** Every frame saved so far is recorded at its position. */
  predicate Recorded(cfg: Config, timeline: seq<TimelineItem>, host: Host, rejected: set<Write>,
                     lo: int, frames: seq<Frame>)
    requires cfg.framesPerOperation >= 1 && ExposesTimeline(host, timeline)
  {
    forall m :: 0 <= m < |frames| ==> RecordedAt(cfg, timeline, host, rejected, lo, frames[m], m)
  }

  /** Runs `collectFrames`. Items are visited at zero-based indices
      `start - 1 .. end - 1`. The run fails exactly when the rotation step
      count is zero. Otherwise the frames are numbered 0, 1, 2, ... without
      gap, each taken at an animated item of the range, as many as the
      budgets of the animated items add up to; the log holds the lines of
      the Move and Mirror items in order; the marker rests one past the last
      item not skipped; every modelled parameter and opacity is as before;
      and each frame shows the state its item's sub-frame loop gives it. */
  method CollectFrames(cfg: Config, timeline: seq<TimelineItem>, host: Host, rejected: set<Write>)
    returns (r: Outcome)
    requires cfg.framesPerOperation >= 1
    requires ExposesTimeline(host, timeline)
    ensures r.RotationByZero? <==> EffectiveFramesPerRotation(cfg) == 0
    ensures r.Done? ==>
      && r.host.params == host.params && r.host.opacities == host.opacities
      && r.host.marker == MarkerBetween(timeline, cfg.start - 1, cfg.end, host.marker)
      && |r.frames| == FramesBetween(cfg, timeline, cfg.start - 1, cfg.end)
      && r.log == LogBetween(timeline, cfg.start - 1, cfg.end)
      && (forall m :: 0 <= m < |r.frames| ==> r.frames[m].number == m)
      && (forall m :: 0 <= m < |r.frames| ==>
            cfg.start - 1 <= r.frames[m].item < cfg.end && Animated(timeline, r.frames[m].item))
      && Recorded(cfg, timeline, host, rejected, cfg.start - 1, r.frames)
  {
    if EffectiveFramesPerRotation(cfg) == 0 {
      // The rotation angle 2 * pi / framesPerRotation divides by zero.
      return RotationByZero;
    }
    var lo, hi := cfg.start - 1, cfg.end;
    var params, opacities, marker := host.params, host.opacities, host.marker;
    var frames: seq<Frame> := [];
    var log: seq<LogLine> := [];
    var i := lo;
    while i < hi
      invariant lo <= i && (i <= hi || i == lo)
      invariant params == host.params && opacities == host.opacities
      invariant marker == MarkerBetween(timeline, lo, i, host.marker)
      invariant |frames| == FramesBetween(cfg, timeline, lo, i)
      invariant log == LogBetween(timeline, lo, i)
      invariant Numbered(frames, timeline, lo, i)
      invariant Recorded(cfg, timeline, host, rejected, lo, frames)
    {
      var d := Classify(ItemAt(timeline, i), i);
      match d {
        case Skip =>
          NumberedGrows(frames, timeline, lo, i);
        case Logged(lines) =>
          marker := i + 1;
          log := log + lines;
          NumberedGrows(frames, timeline, lo, i);
        case Animate(e) =>
          marker := i + 1;
          params, opacities, frames := AnimateItem(cfg, timeline, host, rejected, e, lo, i, frames);
      }
      i := i + 1;
    }
    return Done(Host(params, opacities, marker), frames, log);
  }

  /** A range that grows keeps the frames already numbered. */
  lemma NumberedGrows(frames: seq<Frame>, timeline: seq<TimelineItem>, lo: int, i: int)
    requires Numbered(frames, timeline, lo, i)
    ensures Numbered(frames, timeline, lo, i + 1)
  {
  }

  /** The sub-frame loop of the animated item at `i`, appended to the
      frames saved so far: the earlier frames are kept, the new ones are
      the item's frames as `Driver.RunOperation` takes them and continue
      the numbering, and the modelled host values are left as they were. */
  method AnimateItem(cfg: Config, timeline: seq<TimelineItem>, host: Host, rejected: set<Write>,
                     e: Entity, lo: int, i: int, frames: seq<Frame>)
    returns (params: map<ParamId, Parameter>, opacities: map<ShapeId, real>, frames': seq<Frame>)
    requires cfg.framesPerOperation >= 1 && ExposesTimeline(host, timeline)
    requires Classify(ItemAt(timeline, i), i) == Animate(e)
    requires lo <= i && Numbered(frames, timeline, lo, i)
    requires |frames| == FramesBetween(cfg, timeline, lo, i)
    requires Recorded(cfg, timeline, host, rejected, lo, frames)
    ensures params == host.params && opacities == host.opacities
    ensures Exposes(host, e)
    ensures |frames'| == |frames| + FrameCount(cfg, timeline, i)
    ensures frames'[..|frames|] == frames
    ensures forall m :: |frames| <= m < |frames'| ==>
      frames'[m] == FrameAt(host.params, host.opacities, PlanFor(e, host.params, cfg.framesPerOperation),
                            cfg.framesPerOperation, i, |frames|, rejected, m - |frames|)
    ensures Numbered(frames', timeline, lo, i + 1)
    ensures Recorded(cfg, timeline, host, rejected, lo, frames')
  {
    var n := cfg.framesPerOperation;
    assert Exposes(host, e);
    var plan := PlanFor(e, host.params, n);
    assert plan == ItemPlan(cfg, timeline, host, i);
    var emitted;
    params, opacities, emitted := RunOperation(host.params, host.opacities, plan, n, FrameBudget(cfg, i), i, |frames|, rejected);
    forall m | 0 <= m < |emitted|
      ensures emitted[m].number == |frames| + m && emitted[m].item == i
    {
    }
    frames' := frames + emitted;
    RecordedAppend(cfg, timeline, host, rejected, lo, i, frames, emitted);
  }

  /** Appending the frames of the animated item at `i`, numbered on from
      the frames of the items before it, keeps every frame recorded. */
  lemma RecordedAppend(cfg: Config, timeline: seq<TimelineItem>, host: Host, rejected: set<Write>,
                       lo: int, i: int, frames: seq<Frame>, emitted: seq<Frame>)
    requires cfg.framesPerOperation >= 1 && ExposesTimeline(host, timeline) && Animated(timeline, i)
    requires |frames| == FramesBetween(cfg, timeline, lo, i) && |emitted| == FrameCount(cfg, timeline, i)
    requires Recorded(cfg, timeline, host, rejected, lo, frames)
    requires forall m :: 0 <= m < |emitted| ==>
      emitted[m] == FrameAt(host.params, host.opacities, ItemPlan(cfg, timeline, host, i),
                            cfg.framesPerOperation, i, |frames|, rejected, m)
    ensures Recorded(cfg, timeline, host, rejected, lo, frames + emitted)
  {
    var all := frames + emitted;
    forall m | 0 <= m < |all|
      ensures RecordedAt(cfg, timeline, host, rejected, lo, all[m], m)
    {
      if m < |frames| {
        assert all[m] == frames[m];
      } else {
        var k := m - |frames|;
        assert all[m] == emitted[k];
        assert emitted[k].item == i;
      }
    }
  }

  /** The global frame count of a run over `lo .. end - 1` with a
      non-negative trailing count: the regular count for every animated
      item, plus the trailing frames exactly when the item at `end - 1`
      is animated, whatever the items before it are. */
  lemma {:induction false} TotalFrames(cfg: Config, timeline: seq<TimelineItem>, lo: int)
    requires cfg.framesPerOperation >= 1 && cfg.finalFrames >= 0
    ensures FramesBetween(cfg, timeline, lo, cfg.end)
         == cfg.framesPerOperation * AnimatedBetween(timeline, lo, cfg.end)
          + (if lo < cfg.end && Animated(timeline, cfg.end - 1) then cfg.finalFrames else 0)
  {
    if lo < cfg.end {
      RegularFrames(cfg, timeline, lo, cfg.end - 1);
    }
  }

  /** Before index `end - 1` every animated item emits the regular count. */
  lemma {:induction false} RegularFrames(cfg: Config, timeline: seq<TimelineItem>, lo: int, hi: int)
    requires cfg.framesPerOperation >= 1 && hi <= cfg.end - 1
    ensures FramesBetween(cfg, timeline, lo, hi) == cfg.framesPerOperation * AnimatedBetween(timeline, lo, hi)
    decreases hi - lo
  {
    if hi > lo {
      RegularFrames(cfg, timeline, lo, hi - 1);
    }
  }

  /** Whatever count is given to the setter, a run emits the regular count
      per animated item plus, when the item at `end - 1` is animated, the
      count given or none for a negative one. */
  lemma {:induction false} TrailingFramesAfterSet(cfg: Config, value: int, timeline: seq<TimelineItem>, lo: int)
    requires cfg.framesPerOperation >= 1
    ensures FramesBetween(SetFinalFrames(cfg, value), timeline, lo, cfg.end)
         == cfg.framesPerOperation * AnimatedBetween(timeline, lo, cfg.end)
          + (if lo < cfg.end && Animated(timeline, cfg.end - 1) && value > 0 then value else 0)
  {
    TotalFrames(SetFinalFrames(cfg, value), timeline, lo);
  }
}

=== FILE: timeline.dfy ===
/** The host CAD application reduced to plain data: the design timeline,
    the entities its items point at, the scalar parameters that drive
    features, the opacity of bodies and components, and the marker. */
module Timeline {
  import opened Base

  /** Identifies one scalar model parameter of the host. */
  type ParamId = nat

  /** Identifies a body or a component: anything carrying an opacity. */
  type ShapeId = nat

  /** The symbolic side of a parameter: the formula the user typed, or the
      plain literal the host stores after a numeric value is assigned. */
  datatype Expression = Formula(text: string) | Literal(number: real)

  datatype Parameter = Parameter(value: real, expression: Expression)

  /** How far a feature extends. Only the first three carry a single scalar
      driver; each names the parameter that drives it. */
  datatype ExtentDefinition =
    | DistanceExtent(distance: ParamId)
    | SymmetricExtent(distance: ParamId)
    | AngleExtent(angle: ParamId)
    | ToEntityExtent
    | ThroughAllExtent
    | OtherExtent(className: string)

  /** The host's feature-operation enumeration. */
  datatype FeatureOperation =
    | JoinOperation
    | CutOperation
    | IntersectOperation
    | NewBodyOperation
    | NewComponentOperation
  {
    /** The integer the host exposes for the operation type. */
    function Code(): nat {
      match this
      case JoinOperation => 0
      case CutOperation => 1
      case IntersectOperation => 2
      case NewBodyOperation => 3
      case NewComponentOperation => 4
    }
  }

  /** An inserted component instance. */
  datatype Occurrence = Occurrence(component: ShapeId, isReferencedComponent: bool)

  /** The entity a timeline item points at, tagged by its kind. Attributes
      the host may fail to read are optional. */
  datatype Entity =
    | Extrude(extentOne: ExtentDefinition, hasTwoExtents: bool, extentTwo: ExtentDefinition,
              operation: FeatureOperation, bodies: seq<ShapeId>)
    | Revolve(extentDefinition: ExtentDefinition)
    | Move(transform: Option<seq<real>>)
    | Mirror(bodyCount: Option<nat>, inputCount: Option<nat>)
    | Joint(occurrenceOne: Option<Occurrence>)
    | OccurrenceEntity(occurrence: Occurrence)
    | RectangularPattern(quantityOne: Option<ParamId>, distanceOne: Option<ParamId>,
                         quantityTwo: Option<ParamId>, distanceTwo: Option<ParamId>)
    | Sketch
    | ConstructionPlane
    | ConstructionAxis
    | ConstructionPoint
    | ThreadFeature
    | Combine
    | Canvas
    | OtherEntity(className: string)

  /** One position of the timeline. `Unreadable` stands for an item whose
      inspection raises inside the host. */
  datatype TimelineItem =
    | Unreadable
    | Item(isSuppressed: bool, isGroup: bool, entity: Option<Entity>)

  /** The item at zero-based position `i`; positions outside the timeline
      cannot be read. */
  function ItemAt(timeline: seq<TimelineItem>, i: int): (item: TimelineItem)
    ensures 0 <= i < |timeline| ==> item == timeline[i]
    ensures !(0 <= i < |timeline|) ==> item.Unreadable?
  {
    if 0 <= i < |timeline| then timeline[i] else Unreadable
  }

  /** The mutable part of the host the engine touches. */
  datatype Host = Host(params: map<ParamId, Parameter>, opacities: map<ShapeId, real>, marker: int)

  /** The driving parameter of a numeric extent, if any. */
  function ExtentParams(e: ExtentDefinition): set<ParamId> {
    match e
    case DistanceExtent(p) => {p}
    case SymmetricExtent(p) => {p}
    case AngleExtent(p) => {p}
    case _ => {}
  }

  function OptionSet<T>(o: Option<T>): set<T> {
    if o.Some? then {o.value} else {}
  }

  /** Every parameter the engine may read from an entity; the second side
      of an extrusion only when it has one. */
  function EntityParams(e: Entity): set<ParamId> {
    match e
    case Extrude(one, hasTwo, two, _, _) => ExtentParams(one) + (if hasTwo then ExtentParams(two) else {})
    case Revolve(ext) => ExtentParams(ext)
    case RectangularPattern(q1, d1, q2, d2) => OptionSet(q1) + OptionSet(d1) + OptionSet(q2) + OptionSet(d2)
    case _ => {}
  }

  /** Every body or component of an entity that has an opacity. */
  function EntityShapes(e: Entity): set<ShapeId> {
    match e
    case Extrude(_, _, _, _, bodies) => set k | 0 <= k < |bodies| :: bodies[k]
    case Joint(Some(occ)) => {occ.component}
    case OccurrenceEntity(occ) => {occ.component}
    case _ => {}
  }

  /** The host exposes, as live objects, every parameter and shape that the
      entity refers to. */
  predicate Exposes(host: Host, e: Entity) {
    && EntityParams(e) <= host.params.Keys
    && EntityShapes(e) <= host.opacities.Keys
  }

  /** The host exposes everything every readable item refers to. */
  predicate ExposesTimeline(host: Host, timeline: seq<TimelineItem>) {
    forall i :: 0 <= i < |timeline| && timeline[i].Item? && timeline[i].entity.Some? ==>
      Exposes(host, timeline[i].entity.value)
  }
}
